=== FILE: README.md ===
# A verified model of `variant<Types...>`

This project models the runtime core of a hand-written C++ tagged union,
`variant<Types...>`, which follows `std::variant` (section 23.7 of
ISO/IEC 14882:2017, stable name [variant]). A variant holds either one
object of one of its `N` alternatives or nothing ("valueless by
exception"). It is made of five layers, and each layer has its own file
and module here:

| C++ header | Dafny module (file) | form |
|---|---|---|
| `uninit_value.h` | `UninitValue` (`uninit_value.dfy`) | class `Cell`: one storage cell whose object is created and destroyed explicitly |
| `variant_union.h` | `VariantUnion` (`variant_union.dfy`) | class `Union`: the recursive chain of cells; each operation reaches cell `I` by peeling `I` down by one per level |
| `variant_storage.h` | `VariantStorage` (`variant_storage.dfy`) | class `Variant` (`index_` plus the union) with `reset`, the destructor, the constructors, copy and move assignment, and `emplace`; each method is proved against a pure function on state snapshots |
| `variant.h` | `VariantFacade` (`variant.dfy`) | converting construction and assignment, `emplace<T>`, `holds_alternative`, `get_if`, and the six comparison operators |
| `variant_utils.h` | `VariantUtils` (`variant_utils.dfy`) | pure: `variant_npos`, `get<I>`/`get<T>`, and the recursive dispatch of `visit` and `visit_index` |

`Wrappers` (`wrappers.dfy`) holds `Option` and `Result`.

The central invariant is `State.Valid`. It says that `index_` is an
alternative or `variant_npos`, and that a cell holds a live object exactly
when it is the active one. `Variant.Valid` lifts it to the object's real
fields. Every constructor and every state-changing method keeps it.

Modelling choices:
- Every alternative's objects have one type `V`. Constructing an object
  "from arguments" means producing the value `v` that those arguments build.
- An exception thrown by an alternative's constructor is an input flag,
  `throws`. `bad_variant_access` and a constructor's exception are the two
  `Error` values.
- A move leaves a live moved-from object in the source. Its value is the
  input `residue`.
- The alternative that overload resolution picks for a converting
  argument is the input `chosen` (or `j`). In the converting assignment,
  whether building the temporary throws and whether moving it in throws
  are the inputs `ctorThrows` and `moveThrows`. The code's test of the
  alternative's traits (variant.h:39-40) is always false, as the fourth
  finding below explains, so the model as written does not consult them.
  The corrected definition takes them as the inputs `nothrowCtor` and
  `nothrowMove`.
- `variant_npos` is `size_t(-1)` on a 64-bit target, so it is
  `0xFFFF_FFFF_FFFF_FFFF`. It bounds the number of alternatives.
- The comparison operators take the alternatives' own operator as a
  function `(V, V) -> bool`. A visitor is a function of the argument
  sequence.

## Model

| member | source | states |
|---|---|---|
| UninitValue.Cell.Uninit | uninit_value.h:100-101 | raw storage holds no live object |
| UninitValue.Cell.FromArgs | uninit_value.h:67-70 | constructing from arguments makes the built value the live object |
| UninitValue.Cell.Default | uninit_value.h:58-60 | the default constructor holds a default-constructed `Type` |
| UninitValue.Cell.ConstructFrom | uninit_value.h:18-19 | constructing in place from arguments leaves the value live; a throwing constructor leaves the cell empty |
| UninitValue.Cell.Construct | uninit_value.h:88-90 | copy construction makes this cell's object equal to the other's; only this cell changes |
| UninitValue.Cell.ConstructMove | uninit_value.h:92-94 | move construction gives this cell the other's old object; the other keeps the moved-from residue |
| UninitValue.Cell.Assign | uninit_value.h:76-78 | assigning through the reference `get` returns replaces the live object |
| UninitValue.Cell.Reset | uninit_value.h:96-98 | `reset` ends the live object's lifetime, so the cell is empty |
| UninitValue.Cell.Get | uninit_value.h:72-86 | `get` returns the live object and reads nothing else |
| VariantUnion.Union.Empty | variant_union.h:12 | the default constructor builds every cell empty, each distinct and fresh |
| VariantUnion.Union.Blank | variant_union.h:12 | the default constructor's recursion through `rest()` yields `n` distinct, fresh and empty cells |
| VariantUnion.Union.InPlace | variant_union.h:19-24 | the `in_place_index<i>` constructor makes exactly cell `i` live, holding the argument's value |
| VariantUnion.Union.Chain | variant_union.h:19-24 | the recursion with `i - 1` per level builds distinct fresh cells, with only cell `i` live |
| VariantUnion.Union.InPlaceDefault | variant_union.h:23-24 | `in_place_index<0>` with no arguments default-constructs only cell 0 |
| VariantUnion.Union.ConstructCopy | variant_union.h:26-33 | `construct<i>(const&)` copies the other union's cell `i` into cell `i`; every other cell of both unions is unchanged |
| VariantUnion.Union.ConstructMove | variant_union.h:35-42 | `construct<i>(&&)` moves cell `i` across; the source cell holds the residue; no other cell changes |
| VariantUnion.Union.Reset | variant_union.h:44-51 | `reset<i>` empties cell `i` and leaves every other cell unchanged |
| VariantUnion.Union.Emplace | variant_union.h:53-62 | `emplace<i>` constructs cell `i` and returns that very cell; only cell `i` changes, and it stays empty if the constructor throws |
| VariantUnion.Union.GetAt | variant_union.h:64-71 | peeling the index by one per level reaches exactly cell `level + i` |
| VariantUnion.Union.Get | variant_union.h:73-80 | `get<i>` returns the live object of cell `i` |
| VariantUtils.NposIsNoAlternative | variant_utils.h:55 | `variant_npos` is never the index of an alternative, so it never names a live cell |
| VariantUtils.Get | variant_utils.h:249-273 | `get<I>` succeeds exactly when `I` is the active index, with the live object; otherwise, including every valueless variant, it throws `bad_variant_access` |
| VariantUtils.GetType | variant_utils.h:275-293 | `get<T>` succeeds exactly when the alternative chosen for `T` is active, otherwise `bad_variant_access` |
| VariantUtils.Choose | variant_utils.h:117-158 | `choose<current, chosen...>`: compares the first operand's index with each candidate from `current` up, and past the last alternative lands in the throwing `visit_chooser<false>`; it fails only with `bad_variant_access`, and on success yields one index per operand, starting with the indices already resolved (the full result is `ChooseScans`) |
| VariantUtils.RunFunc | variant_utils.h:132-145 | `run_func<index, chosen...>`: once every operand is resolved the visitor gets the resolved indices, else the resolved operand is rotated to the back; it fails only with `bad_variant_access` and on success yields one index per operand, the resolved ones first |
| VariantUtils.ChooseScans | variant_utils.h:132-158 | the scan over candidates, with its rotation of operands, throws exactly when an unresolved operand is valueless; otherwise it yields the operands' active indices in their original order |
| VariantUtils.Rotate | variant_utils.h:142-143 | rotating the resolved operand to the back keeps every operand valid and the resolved indices the active indices of the rotated operands |
| VariantUtils.VisitIndex | variant_utils.h:184-193 | `visit_index` has no guard: it throws `bad_variant_access` exactly when some operand is valueless, and otherwise passes each operand's active index, in operand order |
| VariantUtils.Arguments | variant_utils.h:136-137 | the `get<Indexes>(vars)...` argument list of `run_func` is the operands' active objects in operand order |
| VariantUtils.Visit | variant_utils.h:162-181 | `visit` throws exactly when some operand is valueless; otherwise the visitor runs once, on the operands' active objects in operand order |
| VariantStorage.ResetState | variant_storage.h:39-48 | after `reset` the variant is valueless and every cell is empty; a valueless variant is unchanged |
| VariantStorage.MovedFrom | variant_storage.h:150-162 | after a move the source keeps its index, and its live cell holds the residue |
| VariantStorage.AssignedInPlace | variant_storage.h:209-210 | assigning in place keeps the index and replaces the active object |
| VariantStorage.Emplaced | variant.h:72-78 | `emplace<i>` succeeds exactly when the constructor does not throw, and then holds the value in alternative `i`; a throw leaves the variant valueless |
| VariantStorage.CopyAssigned | variant_storage.h:196-217 | copy assignment, as written: on success the destination equals the source; it throws `bad_variant_access` exactly when the destination is valueless and the source is not, leaving the destination unchanged; a throwing constructor on an index change leaves it valueless |
| VariantStorage.MoveAssigned | variant_storage.h:100-121 | move assignment, as written: the same three outcomes as copy assignment; on success the source keeps its index and holds the residue; on a throw the source is modelled as unchanged (see Left out) |
| VariantStorage.CopyAssignedStd | variant_storage.h:196-217 | copy assignment as [variant.assign] of C++17 specifies it: a valueless destination is handled like any change of alternative; on a change of alternative the copy is emplaced when it cannot throw or a move could, and otherwise built as a temporary first, so a throw then leaves the destination unchanged; a completed assignment makes the destination equal to the source |
| VariantStorage.MoveAssignedStd | variant_storage.h:100-121 | move assignment as [variant.assign] specifies it: it completes unless a constructor throws on an index change; then the destination equals the source's old state and the source holds the residue; a throw leaves the destination valueless |
| VariantStorage.AssignIntoValuelessThrows | variant_storage.h:207-215 | a valued source copy-assigned into a valueless destination throws `bad_variant_access` and leaves it valueless, where the corrected assignment copies |
| VariantStorage.MoveIntoValuelessThrows | variant_storage.h:111-119 | a valued source move-assigned into a valueless destination throws `bad_variant_access` and moves nothing, where the corrected assignment moves the object over |
| VariantStorage.CopyAssignThrowLosesValue | variant_storage.h:211-212 | on a change of alternative the code always emplaces, so a throwing copy leaves the destination valueless, where the standard's temporary copy leaves it holding its old object |
| VariantStorage.CopyAssignedAgreesWithStd | variant_storage.h:196-217 | into a valued destination, or from a valueless source, when the copy is emplaced or does not throw, the code's copy assignment equals the corrected one |
| VariantStorage.MoveAssignedAgreesWithStd | variant_storage.h:100-121 | into a valued destination, or from a valueless source, the code's move assignment equals the corrected one |
| VariantStorage.ResetTarget | variant_storage.h:39-48 | `reset()` destroys the cell `index_` names and nothing when `index_` is `npos`; on a valid state that is the live cell |
| VariantStorage.ConstructedFrom | variant_storage.h:247-259 | the copy constructor as written: the bases start with `index_ == 0` (variant_storage.h:55) and no live cell; without a throw the new object equals the source; a throwing copy unwinds that default-built state |
| VariantStorage.ThrowingConstructionResetsEmptyCell | variant_storage.h:50-55 | when the copy of a valued source throws, the object being unwound breaks the one-live-cell invariant, and its destructor's `reset()` destroys cell 0, which holds no object |
| VariantStorage.ConstructedFromStd | variant_storage.h:247-259 | corrected copy constructor, with the bases built valueless: every outcome is a valid state, and a throw unwinds a valueless object whose `reset()` destroys nothing |
| VariantStorage.ConstructedFromAgreesWithStd | variant_storage.h:247-259 | without a throw the code's and the corrected copy constructor build the same object |
| VariantStorage.MoveAssignedDstIsCopy | variant_storage.h:100-121 | move assignment leaves the destination and the outcome exactly as copy assignment does |
| VariantStorage.Variant.Index | variant.h:63-65 | `index()` is below the number of alternatives exactly when the variant holds a value, and then it names the live cell |
| VariantStorage.Variant.ValuelessByException | variant.h:80-82 | `valueless_by_exception()` holds exactly when no cell holds a live object |
| VariantStorage.Variant.InPlace | variant_storage.h:35-37 | the `in_place_index<i>` constructor gives `index_ == i` with only cell `i` live |
| VariantStorage.Variant.Default | variant_storage.h:244-245 | the default constructor is `in_place_index<0>`: `index_ == 0`, holding the default-constructed object |
| VariantStorage.Variant.Copy | variant_storage.h:247-259 | the copy constructor copies `index_` and constructs only the matching cell, so the new variant equals the source |
| VariantStorage.Variant.Move | variant_storage.h:150-162 | the move constructor yields the source's old state; the source keeps its index and holds the residue |
| VariantStorage.Variant.CopiedStorage | variant_storage.h:247-259 | the copy constructor's storage: a fresh union whose cells equal the source's, only the active one constructed |
| VariantStorage.Variant.MovedStorage | variant_storage.h:150-162 | the move constructor's storage: a fresh union holding the source's old cells; the source keeps its index and holds the residue |
| VariantStorage.Variant.Reset | variant_storage.h:39-48 | `reset()` on the object follows `ResetState` and keeps the invariant |
| VariantStorage.Variant.Destroy | variant_storage.h:50-52 | the destructor leaves no cell live |
| VariantStorage.Variant.Emplace | variant.h:72-78 | `emplace<i>` on the object follows `Emplaced` and keeps the invariant |
| VariantStorage.Variant.CopyAssign | variant_storage.h:196-217 | copy assignment on the object follows `CopyAssigned`; the source is unchanged |
| VariantStorage.Variant.CopySameIndex | variant_storage.h:209-210 | equal indices: the active object is copy-assigned in place, and only that cell changes |
| VariantStorage.Variant.MoveAssign | variant_storage.h:100-121 | move assignment on both objects follows `MoveAssigned` |
| VariantStorage.Variant.MoveSameIndex | variant_storage.h:113-114 | equal indices: the active object is move-assigned in place, and the source's cell holds the residue |
| VariantStorage.Variant.MoveOtherIndex | variant_storage.h:115-116 | different indices: `emplace` of the moved object, following `Emplaced`; the source holds the residue only when the emplace completed |
| VariantFacade.ConvertingAssigned | variant.h:34-47 | converting assignment as written: on success the variant holds the argument in the chosen alternative; every change of alternative goes through a temporary, so a throwing construction leaves the variant unchanged, a throwing move of the temporary leaves it valueless, and a valueless variant throws `bad_variant_access` and stays valueless |
| VariantFacade.ConvertingAssignedStd | variant.h:34-47 | corrected converting assignment, with the traits read off the alternative and the temporary moved in by the corrected move assignment: it completes unless a constructor throws on an index change, and never throws `bad_variant_access` |
| VariantFacade.ConvertingIntoValuelessThrows | variant.h:43 | converting-assigning into a valueless variant throws `bad_variant_access` and leaves it valueless, where the corrected assignment holds the argument whatever the alternative's traits |
| VariantFacade.ConvertingAlwaysMovesTemporary | variant.h:39-43 | for an alternative that is nothrow-constructible from the argument but whose move throws, the code's temporary move leaves the variant valueless, where the corrected assignment emplaces and completes |
| VariantFacade.ConvertingAssignedAgreesWithStd | variant.h:34-47 | on a valued variant, when the temporary's move does not throw and a throwing construction is one the standard also builds as a temporary, the code's converting assignment equals the corrected one |
| VariantFacade.ConvertingAssign | variant.h:34-47 | converting assignment on the object follows `ConvertingAssigned`: in place, or a temporary variant object then move assignment |
| VariantFacade.ConvertingConstruct | variant.h:27-30 | the converting constructor holds the argument in the chosen alternative |
| VariantFacade.EmplaceType | variant.h:67-70 | `emplace<T>` is `emplace` at the alternative chosen for `T` |
| VariantFacade.HoldsAlternative | variant.h:105-108 | `holds_alternative<T>` holds exactly when the chosen alternative's cell is live |
| VariantFacade.GetIf | variant.h:110-116 | `get_if<I>` is non-null exactly when `I` is active, pointing at the live object, and exactly when `get<I>` would succeed |
| VariantFacade.GetIfType | variant.h:124-130 | `get_if<T>` is non-null exactly when `holds_alternative<T>` holds, and then agrees with `get<T>` |
| VariantFacade.EqualCase | variant.h:140-150 | the lambda of `==`, given the operands' active indices, never throws and is true exactly when the indices are equal and the objects compare equal |
| VariantFacade.NotEqualCase | variant.h:157-167 | the lambda of `!=`, given the active indices, never throws and is true exactly when the indices differ or the objects compare unequal |
| VariantFacade.LessCase | variant.h:174-188 | the lambda of `<`, given the active indices, never throws; a lower index is less, equal indices compare the objects |
| VariantFacade.GreaterCase | variant.h:195-209 | the lambda of `>`, given the active indices, never throws; a higher index is greater, equal indices compare the objects |
| VariantFacade.LessEqCase | variant.h:216-230 | the lambda of `<=`, given the active indices, never throws; a lower index is less, equal indices compare the objects |
| VariantFacade.GreaterEqCase | variant.h:237-251 | the lambda of `>=`, given the active indices, never throws; a higher index is greater, equal indices compare the objects |
| VariantFacade.Equal | variant.h:137-152 | `==` throws exactly when an operand is valueless; otherwise it is true exactly when the indices are equal and the objects compare equal |
| VariantFacade.NotEqual | variant.h:154-169 | `!=` throws exactly when an operand is valueless; otherwise it is true exactly when the indices differ or the objects compare unequal |
| VariantFacade.Less | variant.h:171-190 | `<` throws exactly when an operand is valueless; otherwise a lower index is less, and equal indices compare the objects |
| VariantFacade.Greater | variant.h:192-211 | `>` throws exactly when an operand is valueless; otherwise a higher index is greater, and equal indices compare the objects |
| VariantFacade.LessEq | variant.h:213-232 | `<=` throws exactly when an operand is valueless; otherwise index first, then the objects' `<=` |
| VariantFacade.GreaterEq | variant.h:234-253 | `>=` throws exactly when an operand is valueless; otherwise index first, then the objects' `>=` |
| VariantFacade.NotEqualIsNotEqual | variant.h:137-169 | when the objects' `!=` negates their `==`, the variant `!=` negates the variant `==`, and both throw on the same operands |
| VariantFacade.GreaterIsConverseLess | variant.h:171-211 | when the objects' `>` is the converse of their `<`, `v > w` equals `w < v`, throws included |
| VariantFacade.NonStrictAreNegations | variant.h:171-253 | when `<=` negates `>` and `>=` negates `<` on objects, the same holds on variants |
| VariantFacade.EqualStd | variant.h:137-152 | corrected `==`: two valueless variants are equal, a valueless and a valued one are not, and valued operands agree with `Equal` |
| VariantFacade.NotEqualStd | variant.h:154-169 | corrected `!=`: two valueless variants are not unequal, a valueless and a valued one are, and valued operands agree with `NotEqual` |
| VariantFacade.LessStd | variant.h:171-190 | corrected `<`: nothing is below a valueless variant, a valueless one is below every valued one, and valued operands agree with `Less` |
| VariantFacade.GreaterStd | variant.h:192-211 | corrected `>`: a valueless variant is above nothing, every valued one is above a valueless one, and valued operands agree with `Greater` |
| VariantFacade.LessEqStd | variant.h:213-232 | corrected `<=`: a valueless variant is below or equal to everything, a valued one is not below or equal to a valueless one, and valued operands agree with `LessEq` |
| VariantFacade.GreaterEqStd | variant.h:234-253 | corrected `>=`: everything is above or equal to a valueless variant, a valueless one is not above or equal to a valued one, and valued operands agree with `GreaterEq` |
| VariantFacade.ValuelessComparisonsThrow | variant.h:137-253 | with a valueless operand, each of the six code operators throws `bad_variant_access`, where the corrected one returns a value (true for `==`, `!=`, `<`, `<=`, `>=` and `>` on the operands shown) |
| VariantFacade.EqualStdIsReflexive | variant.h:137-152 | when the objects' `==` is reflexive, so is the corrected `==`, valueless variants included |
| VariantFacade.LessStdIsStrictOrder | variant.h:171-190 | when the objects' `<` is a strict order, the corrected `<` is irreflexive and transitive |
| VariantFacade.LessStdIsTrichotomous | variant.h:171-190 | when the objects' `<` is a strict total order, exactly one of `v < w`, `v == w` and `w < v` holds under the corrected `<`, valueless variants included |

## Left out

- Overload resolution for a converting argument (`_Build_FUN`, `__accepted_index`, `index_chooser_v`, variant_utils.h:203-246) depends on C++ conversion and narrowing rules. The chosen index is an input. When no alternative accepts the type, `__accepted_index` falls back to 0, not to `variant_npos` as its comment says. This fallback is not modelled.
- `variant_traits.h` and `enable_special_members.h` only decide at compile time which special members exist, are trivial or are `noexcept`. For cells, `reset`, the destructor and the constructors, the trivial and non-trivial forms have the same effect on values, so each is modelled once. Assignment differs; see the next two lines.
- VariantStorage.CopyAssigned: models only the non-trivial copy-assignment base (variant_storage.h:185-218). When every alternative is trivially copy-assignable, the `<true>` base (variant_storage.h:220-231) defaults `operator=`, which copies `index_` and the union member by member and never goes through `visit_index`; that form is not modelled. The same holds for `CopyAssignedStd`, `Variant.CopyAssign` and the first finding below.
- VariantStorage.MoveAssigned: models only the non-trivial move-assignment base (variant_storage.h:89-122). The trivial `<true>` base (variant_storage.h:124-135) defaults `operator=` and is not modelled. The same holds for `MoveAssignedStd`, `Variant.MoveAssign` and the second finding below.
- VariantFacade.ConvertingAssigned: the temporary is moved in by the variant's own move assignment (variant.h:43), and only the non-trivial move-assignment base is modelled. When every alternative is trivially move-assignable, the defaulted `operator=` of the `<true>` base (variant_storage.h:124-135) copies `index_` and the union, so a valueless variant takes the argument instead of throwing; that form is not modelled. The same holds for `ConvertingAssign`, `ConvertingIntoValuelessThrows` and the third finding below.
- VariantStorage.MoveAssigned: when the move constructor throws during the emplace on an index change, the source is modelled as unchanged. The code promises nothing about a source whose move constructor threw part-way, so this is an assumption. The same holds for `MoveAssignedStd` and `Variant.MoveOtherIndex`.
- `main.cpp` is a demonstration program and is not part of this model.
- Memory layout (`aligned_storage`, `reinterpret_cast`, union overlap) is not modelled. `construct_at` and `destroy_at` become changes to a cell's `value`.
- `noexcept` annotations, and the `std::terminate` that a throw inside a `noexcept` member would cause, are not modelled. Neither is `constexpr`.
- Reference categories (`&`, `&&`, const) of `get` and `get()` are not modelled. Every overload is one member.
- The const `get_if` overloads (variant.h:118-122, 132-135) call `get_if(pv)` without template arguments. They have no well-defined behaviour, so they are not modelled.
- VariantFacade.GetIf: takes the variant itself, so a null `pv` is not modelled. The code dereferences `pv` unchecked (variant.h:112), while [variant.get] returns a null pointer for a null `pv`.
- VariantFacade.GetIfType: the same; the code dereferences `pv` unchecked at variant.h:126.
- `swap` and a table-based visitation strategy are not implemented in the code.
- `variant_size`, `variant_alternative`, the `in_place` tags, `monostate` and `bad_variant_access::what` are compile-time or trivial.
- UninitValue.Cell.Assign: the alternative's own assignment operator is modelled as never throwing. The same holds for in-place assignment in `Variant.CopyAssign`, `Variant.MoveAssign` and `ConvertingAssign`.
- VariantStorage.Variant.CopyAssign: requires two distinct variants with separate storage. Self-assignment is not modelled.
- VariantStorage.Variant.MoveAssign: requires two distinct variants with separate storage. Self-move-assignment is not modelled.
- VariantStorage.Variant.InPlace: an alternative's constructor that throws inside the `in_place_index` constructor propagates before `index_` is set, and no object results; the class constructor is modelled as not throwing. The same holds for `Default` and `ConvertingConstruct`.
- VariantStorage.Variant.Copy: does not model a throwing copy of the source's object. In the code the bases are first built with `index_ == 0` (variant_storage.h:55) and no live cell. When the copy throws, unwinding runs the base destructor's `reset()`, which destroys cell 0 although it holds no object. `ConstructedFrom`, `ThrowingConstructionResetsEmptyCell` and the sixth finding below state this on state snapshots. The same holds for the cell and union members that copy or move an object into a cell, `UninitValue.Cell.Construct`, `UninitValue.Cell.ConstructMove`, `VariantUnion.Union.ConstructCopy` and `VariantUnion.Union.ConstructMove`: they have no throw path, unlike `Cell.ConstructFrom`.
- VariantStorage.Variant.Move: does not model a throwing move of the source's object. The code unwinds the same default-built state as the copy constructor (variant_storage.h:150-162), and `ConstructedFrom` covers the object under construction for both. The throwing move is likewise absent from `UninitValue.Cell.ConstructMove` and `VariantUnion.Union.ConstructMove`.
- VariantStorage.Variant.Emplace: returns the outcome, not a reference to the new object. `Union.Emplace` returns the cell itself.
- VariantFacade.Equal: the alternatives' comparison operators are pure functions that do not throw. The same holds for the other five operators.
- VariantUtils.Visit: the visitor is a pure function of the argument sequence, and its return-type deduction is not modelled.

## Findings

| source | as written | input that shows it | evidently intended | confidence | as-written member | corrected member |
|---|---|---|---|---|---|---|
| variant_storage.h:207-215 | in the non-trivial copy-assignment base, both operands go through `visit_index`, which has no valueless guard | a valueless destination copy-assigned from a variant holding alternative 0: `visit_index` passes every candidate for the destination and throws `bad_variant_access` | [variant.assign]: a valued source assigned to a valueless destination emplaces the source's alternative, and the destination ends up equal to the source | high, not executed | VariantStorage.AssignIntoValuelessThrows | VariantStorage.CopyAssignedStd |
| variant_storage.h:111-119 | the non-trivial move-assignment base dispatches the same way | a valueless destination move-assigned from a variant holding alternative 0 throws `bad_variant_access` and moves nothing | [variant.assign]: the destination takes the moved object | high, not executed | VariantStorage.MoveIntoValuelessThrows | VariantStorage.MoveAssignedStd |
| variant.h:43 | the converting assignment's temporary path relies on that move assignment | a valueless variant whose alternatives are not all trivially move-assignable, assigned any converting argument (the path is taken for every change of alternative, see the next row): the temporary is built and the move assignment throws `bad_variant_access` | [variant.assign]: the variant holds the argument | high, not executed | VariantFacade.ConvertingIntoValuelessThrows | VariantFacade.ConvertingAssignedStd |
| variant.h:39-40 | `T_j` is the trait struct `variant_alternative<j, variant>`, not the alternative `variant_alternative_t<j, variant>`; the empty struct is not constructible from the argument and is nothrow-movable, so the test is always false and every change of alternative builds a temporary and moves it | a variant holding alternative 0 assigned an argument for alternative 1 that is nothrow-constructible from it but whose move constructor throws: the temporary's move throws and the variant is left valueless | [variant.assign]: test the alternative's own traits, so this case emplaces directly and completes | high, not executed | VariantFacade.ConvertingAlwaysMovesTemporary | VariantFacade.ConvertingAssignedStd |
| variant_storage.h:211-212 | on a change of alternative the copy assignment always emplaces a copy | a variant holding alternative 0 copy-assigned from one holding alternative 1 whose copy throws but whose move cannot: the destination becomes valueless | [variant.assign]: build a temporary copy first, so the throw leaves the destination holding its old object | medium, not executed | VariantStorage.CopyAssignThrowLosesValue | VariantStorage.CopyAssignedStd |
| variant_storage.h:247-259 | the copy constructor starts from bases built with `index_ == 0` (variant_storage.h:55) and no live cell, and copies `index_` only after the cell copy; the move constructor (variant_storage.h:150-162) does the same | copying a variant that holds alternative 1 whose copy constructor throws: unwinding runs `reset()` on the partly built object, which destroys cell 0, where no object lives | the partly built object is valueless, so unwinding destroys nothing | plausible, not executed | VariantStorage.ThrowingConstructionResetsEmptyCell | VariantStorage.ConstructedFromStd |
| variant.h:137-253 | the six comparison operators dispatch through `visit_index`, so a valueless operand throws before the valueless branches of their lambdas are reached | `v == w` with both operands valueless throws `bad_variant_access`; so do `v != w`, `v < w`, `v <= w` and `v >= w` with `v` valueless and `w > v` with `w` valued | [variant.relops]: two valueless variants are equal, and a valueless variant is less than every valued one (`EqualStd`, `NotEqualStd`, `LessStd`, `GreaterStd`, `LessEqStd` and `GreaterEqStd`) | high, not executed | VariantFacade.ValuelessComparisonsThrow | VariantFacade.LessStd |

=== FILE: uninit_value.dfy ===
/**
 * One storage cell of the variant (`uninit_value<Type>`): raw storage for a
 * single alternative whose object is created and destroyed explicitly by
 * the owner. `value` is `None` while no object lives in the storage.
 *
 * The trivially-destructible and the manual-lifetime forms behave the same
 * and are one class here. Every alternative's objects are modelled by one
 * type `V`; constructing "from arguments" is constructing the value `v`
 * those arguments produce.
 */
module UninitValue {
  import opened Wrappers

  class Cell<V> {
    /** The object living in the storage, if any. */
    var value: Option<V>

    /** Storage not yet used: no object lives in it. */
    constructor Uninit()
      ensures value == None
    {
      value := None;
    }

    /** `uninit_value(args...)`: the object is built from the arguments. */
    constructor FromArgs(v: V)
      ensures value == Some(v)
    {
      value := Some(v);
    }

    /** `uninit_value()` of the manual-lifetime form: default-constructs a
        `Type`; `d` is the value `Type()` produces. */
    constructor Default(d: V)
      ensures value == Some(d)
    {
      value := Some(d);
    }

    /**
     * Placement-construction of the cell from arguments (`construct_at` of
     * `uninit_value(args...)` on existing storage). When the alternative's
     * constructor throws, no object comes to life.
     */
    method ConstructFrom(v: V, throws: bool) returns (ok: bool)
      requires value.None?
      modifies this
      ensures ok == !throws
      ensures value == if ok then Some(v) else None
    {
      if throws {
        return false;
      }
      value := Some(v);
      ok := true;
    }

    /** `construct(other const&)`: copy-construct this cell's object from
        the other's; the other cell is only read. */
    method Construct(other: Cell<V>)
      requires other != this && value.None? && other.value.Some?
      modifies this
      ensures value == other.value
    {
      value := Some(other.Get());
    }

    /**
     * `construct(other&&)`: move-construct this cell's object from the
     * other's. The other cell keeps a live, moved-from object: `residue` is
     * what the alternative's move constructor leaves behind.
     */
    method ConstructMove(other: Cell<V>, residue: V)
      requires other != this && value.None? && other.value.Some?
      modifies this, other
      ensures value == old(other.value)
      ensures other.value == Some(residue)
    {
      value := Some(other.Get());
      other.value := Some(residue);
    }

    /** Assignment through the reference `get()` returns: the live object
        takes the value `v` (its own assignment operator is not modelled). */
    method Assign(v: V)
      requires value.Some?
      modifies this
      ensures value == Some(v)
    {
      value := Some(v);
    }

    /** `reset()`: end the lifetime of the live object. */
    method Reset()
      requires value.Some?
      modifies this
      ensures value == None
    {
      value := None;
    }

    /** `get()`: the live object, read without changing the cell. */
    function Get(): (v: V)
      requires value.Some?
      reads this
      ensures value == Some(v)
    {
      value.value
    }
  }
}

=== FILE: variant.dfy ===
/**
 * The facade of the variant (`variant<Types...>`): emplace by type, the
 * converting constructor and assignment, `holds_alternative`, `get_if` and
 * the six comparison operators.
 *
 * The alternative that overload resolution picks for a converting
 * argument of type `T` is a parameter, `chosen` (or `j`). Whether
 * constructing or moving an alternative's object throws is an input flag;
 * the type traits the standard's converting assignment consults are
 * inputs `nothrowCtor` and `nothrowMove` of the corrected definition.
 */
module VariantFacade {
  import opened Wrappers
  import opened VariantUtils
  import opened VariantStorage

  /**
   * Converting assignment `operator=(T&& t)` with chosen alternative `j`, as
   * the code does it. When `j` is already active, assign in place.
   * Otherwise the code means to emplace when that cannot throw or when
   * moving the alternative could throw anyway, but its test names the trait
   * struct `variant_alternative<j, variant>` rather than the alternative:
   * that empty struct is not constructible from the argument and is
   * nothrow-movable, so the test is always false. Every change of
   * alternative therefore builds a temporary variant from `t` (which throws
   * when `ctorThrows`) and move-assigns it (whose move of the object throws
   * when `moveThrows`).
   */
  function ConvertingAssigned<V>(s: State<V>, j: nat, t: V, ctorThrows: bool, moveThrows: bool): (r: Step<V>)
    requires s.Valid() && j < s.Size()
    ensures r.state.Valid() && r.state.Size() == s.Size()
    ensures r.status == Done <==> j == s.index || (!ctorThrows && !moveThrows && !s.IsValueless())
    ensures r.status == Done ==> r.state == Holding(s.Size(), j, t)
    ensures r.status == Threw(ConstructorThrew) <==>
              j != s.index && (ctorThrows || (moveThrows && !s.IsValueless()))
    ensures r.status == Threw(ConstructorThrew) && ctorThrows ==> r.state == s
    ensures r.status == Threw(ConstructorThrew) && !ctorThrows ==> r.state.IsValueless()
    ensures r.status == Threw(BadVariantAccess) <==> j != s.index && !ctorThrows && s.IsValueless()
    ensures r.status == Threw(BadVariantAccess) ==> r.state == s
  {
    if j == s.index then
      Step(AssignedInPlace(s, t), Done)
    else if ctorThrows then
      // building the temporary throws before the variant is touched
      Step(s, Threw(ConstructorThrew))
    else
      var m := MoveAssigned(s, Holding(s.Size(), j, t), t, moveThrows);
      Step(m.dst, m.status)
  }

  /**
   * Converting assignment as [variant.assign] of C++17 specifies it, with
   * `nothrowCtor` (the alternative is nothrow-constructible from the
   * argument) and `nothrowMove` (it is nothrow-move-constructible) read off
   * the alternative itself: emplace when that cannot throw or moving could,
   * else build a temporary and move it in with the corrected move
   * assignment, `MoveAssignedStd`, which cannot throw then. A valueless
   * variant takes the new object like any other.
   */
  function ConvertingAssignedStd<V>(s: State<V>, j: nat, t: V, nothrowCtor: bool, nothrowMove: bool, throws: bool)
    : (r: Step<V>)
    requires s.Valid() && j < s.Size() && (nothrowCtor ==> !throws)
    ensures r.state.Valid() && r.state.Size() == s.Size()
    ensures r.status == Done <==> j == s.index || !throws
    ensures r.status == Done ==> r.state == Holding(s.Size(), j, t)
    ensures r.status != Done ==> r.status == Threw(ConstructorThrew)
    ensures r.status != Done && !nothrowCtor && nothrowMove ==> r.state == s
    ensures r.status != Done && (nothrowCtor || !nothrowMove) ==> r.state.IsValueless()
  {
    if j == s.index then
      Step(AssignedInPlace(s, t), Done)
    else if nothrowCtor || !nothrowMove then
      Emplaced(s, j, t, throws)
    else if throws then
      Step(s, Threw(ConstructorThrew))
    else
      var m := MoveAssignedStd(s, Holding(s.Size(), j, t), t, false);
      Step(m.dst, m.status)
  }

  /** Where the code and [variant.assign] part ways: since every change of
      alternative goes through the temporary, converting-assigning into a
      valueless variant throws, whatever the alternative's traits, where the
      standard stores the new object. */
  lemma ConvertingIntoValuelessThrows<V>(n: nat, j: nat, t: V)
    requires j < n <= NPOS
    ensures ConvertingAssigned(Valueless(n), j, t, false, false) == Step(Valueless(n), Threw(BadVariantAccess))
    ensures ConvertingAssignedStd(Valueless(n), j, t, true, true, false) == Step(Holding(n, j, t), Done)
    ensures ConvertingAssignedStd(Valueless(n), j, t, false, true, false) == Step(Holding(n, j, t), Done)
  {
  }

  /** Where the test on the trait struct shows: an alternative that is
      nothrow-constructible from the argument but whose move throws is
      emplaced directly by [variant.assign], which cannot fail, while the
      code moves a temporary and is left valueless. */
  lemma ConvertingAlwaysMovesTemporary<V>(n: nat, v: V, t: V)
    requires 2 <= n <= NPOS
    ensures ConvertingAssigned(Holding(n, 0, v), 1, t, false, true) == Step(Valueless(n), Threw(ConstructorThrew))
    ensures ConvertingAssignedStd(Holding(n, 0, v), 1, t, true, false, false) == Step(Holding(n, 1, t), Done)
  {
    NormalForm(ConvertingAssigned(Holding(n, 0, v), 1, t, false, true).state);
  }

  /** On a valued variant the code and the corrected converting assignment
      agree whenever moving the temporary does not throw and, if
      constructing the object throws, the standard also takes the
      temporary path (the alternative is nothrow-move-constructible). */
  lemma ConvertingAssignedAgreesWithStd<V>(s: State<V>, j: nat, t: V, nothrowCtor: bool, nothrowMove: bool, throws: bool)
    requires s.Valid() && j < s.Size() && (nothrowCtor ==> !throws) && !s.IsValueless()
    requires nothrowMove || !throws
    ensures ConvertingAssigned(s, j, t, throws, false) == ConvertingAssignedStd(s, j, t, nothrowCtor, nothrowMove, throws)
  {
    if j != s.index && !throws {
      MoveAssignedAgreesWithStd(s, Holding(s.Size(), j, t), t, false);
    }
  }

  /** The converting assignment on a variant object, proved against
      `ConvertingAssigned`: the temporary is a second variant object. */
  method ConvertingAssign<V>(v: Variant<V>, j: nat, t: V, ctorThrows: bool, moveThrows: bool) returns (st: Status)
    requires v.Valid() && j < |v.storage.cells|
    modifies v, v.storage.cells
    ensures v.Valid()
    ensures Step(v.View(), st) == ConvertingAssigned(old(v.View()), j, t, ctorThrows, moveThrows)
  {
    if j == v.Index() {
      v.storage.GetAt(0, j).Assign(t);
      st := Done;
      assert v.View().cells == AssignedInPlace(old(v.View()), t).cells;
    } else {
      if ctorThrows {
        return Threw(ConstructorThrew);
      }
      var temporary := new Variant.InPlace(|v.storage.cells|, j, t);
      assert v.Separate(temporary);
      st := v.MoveAssign(temporary, t, moveThrows);
    }
  }

  /** The converting constructor `variant(T&& t)` (and `variant(in_place_type<T>, args...)`):
      the `in_place_index` constructor at the chosen alternative. */
  method ConvertingConstruct<V>(n: nat, chosen: nat, t: V) returns (v: Variant<V>)
    requires chosen < n <= NPOS
    ensures fresh(v) && v.Valid() && v.View() == Holding(n, chosen, t)
    ensures v.Index() == chosen && !v.ValuelessByException()
  {
    v := new Variant.InPlace(n, chosen, t);
  }

  /** `emplace<T>(args...)`: `emplace<chosen>(args...)`. */
  method EmplaceType<V>(v: Variant<V>, chosen: nat, x: V, throws: bool) returns (st: Status)
    requires v.Valid() && chosen < |v.storage.cells|
    modifies v, v.storage.cells
    ensures v.Valid() && Step(v.View(), st) == Emplaced(old(v.View()), chosen, x, throws)
  {
    st := v.Emplace(chosen, x, throws);
  }

  /** `holds_alternative<T>(v)`: the chosen alternative is the active one,
      that is, its cell is the live one. */
  function HoldsAlternative<V>(s: State<V>, chosen: nat): (b: bool)
    requires s.Valid() && chosen < s.Size()
    ensures b <==> s.cells[chosen].Some?
    ensures b ==> !s.IsValueless()
  {
    s.index == chosen
  }

  /** `get_if<I>(pv)`: null unless `I` is the active index, else the
      active object. It never throws. */
  function GetIf<V>(s: State<V>, i: nat): (p: Option<V>)
    requires s.Valid() && i < s.Size()
    ensures p.Some? <==> i == s.index
    ensures p == s.cells[i]
    ensures p.Some? <==> Get(s, i).Success?
  {
    if s.index == i then Some(Get(s, i).value) else None
  }

  /** `get_if<T>(pv)`: `get_if` at the chosen index; non-null exactly when
      `holds_alternative<T>` is true. */
  function GetIfType<V>(s: State<V>, chosen: nat): (p: Option<V>)
    requires s.Valid() && chosen < s.Size()
    ensures p.Some? <==> HoldsAlternative(s, chosen)
    ensures p.Some? ==> GetType(s, chosen) == Success(p.value)
  {
    if s.index == chosen then Some(Get(s, chosen).value) else None
  }

  // The visitor lambdas of the comparison operators. They receive the two
  // indices `visit_index` resolved, which are the operands' active indices;
  // then the `get` calls in them succeed and the lambda never throws.

  /** The lambda of `==`: different indices are unequal, equal ones compare
      the objects. */
  function EqualCase<V>(v: State<V>, w: State<V>, i1: nat, i2: nat, eq: (V, V) -> bool): (r: Result<bool, Error>)
    requires v.Valid() && w.Valid() && i1 < v.Size() && i2 < w.Size()
    ensures r.Failure? ==> r.error == BadVariantAccess
    ensures i1 == v.index && i2 == w.index ==> r.Success? && (r.value <==> i1 == i2 && eq(v.Active(), w.Active()))
  {
    if i1 != i2 then
      Success(false)
    else if v.IsValueless() then
      Success(true)
    else
      var a :- Get(v, i1);
      var b :- Get(w, i2);
      Success(eq(a, b))
  }

  /** The lambda of `!=`: different indices differ, equal ones compare the
      objects. */
  function NotEqualCase<V>(v: State<V>, w: State<V>, i1: nat, i2: nat, ne: (V, V) -> bool): (r: Result<bool, Error>)
    requires v.Valid() && w.Valid() && i1 < v.Size() && i2 < w.Size()
    ensures r.Failure? ==> r.error == BadVariantAccess
    ensures i1 == v.index && i2 == w.index ==> r.Success? && (r.value <==> i1 != i2 || ne(v.Active(), w.Active()))
  {
    if i1 != i2 then
      Success(true)
    else if v.IsValueless() then
      Success(false)
    else
      var a :- Get(v, i1);
      var b :- Get(w, i2);
      Success(ne(a, b))
  }

  /** The lambda of `<`: the lower index is less, equal indices compare the
      objects. */
  function LessCase<V>(v: State<V>, w: State<V>, i1: nat, i2: nat, lt: (V, V) -> bool): (r: Result<bool, Error>)
    requires v.Valid() && w.Valid() && i1 < v.Size() && i2 < w.Size()
    ensures r.Failure? ==> r.error == BadVariantAccess
    ensures i1 == v.index && i2 == w.index ==>
              r.Success? && (r.value <==> i1 < i2 || (i1 == i2 && lt(v.Active(), w.Active())))
  {
    if w.IsValueless() then
      Success(false)
    else if v.IsValueless() then
      Success(true)
    else if i1 < i2 then
      Success(true)
    else if i1 > i2 then
      Success(false)
    else
      var a :- Get(v, i1);
      var b :- Get(w, i2);
      Success(lt(a, b))
  }

  /** The lambda of `>`: the higher index is greater, equal indices compare
      the objects. */
  function GreaterCase<V>(v: State<V>, w: State<V>, i1: nat, i2: nat, gt: (V, V) -> bool): (r: Result<bool, Error>)
    requires v.Valid() && w.Valid() && i1 < v.Size() && i2 < w.Size()
    ensures r.Failure? ==> r.error == BadVariantAccess
    ensures i1 == v.index && i2 == w.index ==>
              r.Success? && (r.value <==> i1 > i2 || (i1 == i2 && gt(v.Active(), w.Active())))
  {
    if v.IsValueless() then
      Success(false)
    else if w.IsValueless() then
      Success(true)
    else if i1 > i2 then
      Success(true)
    else if i1 < i2 then
      Success(false)
    else
      var a :- Get(v, i1);
      var b :- Get(w, i2);
      Success(gt(a, b))
  }

  /** The lambda of `<=`: the same branches, in the same order, as the
      lambda of `<`, with the objects' `<=` in place of `<`. */
  function LessEqCase<V>(v: State<V>, w: State<V>, i1: nat, i2: nat, le: (V, V) -> bool): (r: Result<bool, Error>)
    requires v.Valid() && w.Valid() && i1 < v.Size() && i2 < w.Size()
    ensures r.Failure? ==> r.error == BadVariantAccess
    ensures i1 == v.index && i2 == w.index ==>
              r.Success? && (r.value <==> i1 < i2 || (i1 == i2 && le(v.Active(), w.Active())))
  {
    LessCase(v, w, i1, i2, le)
  }

  /** The lambda of `>=`: the same branches, in the same order, as the
      lambda of `>`, with the objects' `>=` in place of `>`. */
  function GreaterEqCase<V>(v: State<V>, w: State<V>, i1: nat, i2: nat, ge: (V, V) -> bool): (r: Result<bool, Error>)
    requires v.Valid() && w.Valid() && i1 < v.Size() && i2 < w.Size()
    ensures r.Failure? ==> r.error == BadVariantAccess
    ensures i1 == v.index && i2 == w.index ==>
              r.Success? && (r.value <==> i1 > i2 || (i1 == i2 && ge(v.Active(), w.Active())))
  {
    GreaterCase(v, w, i1, i2, ge)
  }

  /** Both operands are well-formed variants over the same alternatives. */
  predicate Comparable<V>(v: State<V>, w: State<V>) {
    v.Valid() && w.Valid() && v.Size() == w.Size()
  }

  /**
   * `v == w`: through `visit_index`, so a valueless operand throws
   * `bad_variant_access`. Otherwise different indices compare unequal and
   * equal indices compare the active objects with their own `==`.
   */
  function Equal<V>(v: State<V>, w: State<V>, eq: (V, V) -> bool): (r: Result<bool, Error>)
    requires Comparable(v, w)
    ensures r.Failure? <==> v.IsValueless() || w.IsValueless()
    ensures r.Failure? ==> r.error == BadVariantAccess
    ensures r.Success? ==> (r.value <==> v.index == w.index && eq(v.Active(), w.Active()))
  {
    assert AllValid([v, w]);
    match VisitIndex([v, w])
    case Failure(e) => Failure(e)
    case Success(idx) => EqualCase(v, w, idx[0], idx[1], eq)
  }

  /** `v != w`: as `==`, with different indices comparing unequal and equal
      indices using the objects' own `!=`. */
  function NotEqual<V>(v: State<V>, w: State<V>, ne: (V, V) -> bool): (r: Result<bool, Error>)
    requires Comparable(v, w)
    ensures r.Failure? <==> v.IsValueless() || w.IsValueless()
    ensures r.Failure? ==> r.error == BadVariantAccess
    ensures r.Success? ==> (r.value <==> v.index != w.index || ne(v.Active(), w.Active()))
  {
    assert AllValid([v, w]);
    match VisitIndex([v, w])
    case Failure(e) => Failure(e)
    case Success(idx) => NotEqualCase(v, w, idx[0], idx[1], ne)
  }

  /** `v < w`: a lower index is less whatever the objects; equal indices
      compare the objects with their own `<`. A valueless operand throws. */
  function Less<V>(v: State<V>, w: State<V>, lt: (V, V) -> bool): (r: Result<bool, Error>)
    requires Comparable(v, w)
    ensures r.Failure? <==> v.IsValueless() || w.IsValueless()
    ensures r.Failure? ==> r.error == BadVariantAccess
    ensures r.Success? ==>
              (r.value <==> v.index < w.index || (v.index == w.index && lt(v.Active(), w.Active())))
  {
    assert AllValid([v, w]);
    match VisitIndex([v, w])
    case Failure(e) => Failure(e)
    case Success(idx) => LessCase(v, w, idx[0], idx[1], lt)
  }

  /** `v > w`: a higher index is greater; equal indices use the objects' `>`. */
  function Greater<V>(v: State<V>, w: State<V>, gt: (V, V) -> bool): (r: Result<bool, Error>)
    requires Comparable(v, w)
    ensures r.Failure? <==> v.IsValueless() || w.IsValueless()
    ensures r.Failure? ==> r.error == BadVariantAccess
    ensures r.Success? ==>
              (r.value <==> v.index > w.index || (v.index == w.index && gt(v.Active(), w.Active())))
  {
    assert AllValid([v, w]);
    match VisitIndex([v, w])
    case Failure(e) => Failure(e)
    case Success(idx) => GreaterCase(v, w, idx[0], idx[1], gt)
  }

  /** `v <= w`: a lower index is less; equal indices use the objects' `<=`. */
  function LessEq<V>(v: State<V>, w: State<V>, le: (V, V) -> bool): (r: Result<bool, Error>)
    requires Comparable(v, w)
    ensures r.Failure? <==> v.IsValueless() || w.IsValueless()
    ensures r.Failure? ==> r.error == BadVariantAccess
    ensures r.Success? ==>
              (r.value <==> v.index < w.index || (v.index == w.index && le(v.Active(), w.Active())))
  {
    assert AllValid([v, w]);
    match VisitIndex([v, w])
    case Failure(e) => Failure(e)
    case Success(idx) => LessEqCase(v, w, idx[0], idx[1], le)
  }

  /** `v >= w`: a higher index is greater; equal indices use the objects' `>=`. */
  function GreaterEq<V>(v: State<V>, w: State<V>, ge: (V, V) -> bool): (r: Result<bool, Error>)
    requires Comparable(v, w)
    ensures r.Failure? <==> v.IsValueless() || w.IsValueless()
    ensures r.Failure? ==> r.error == BadVariantAccess
    ensures r.Success? ==>
              (r.value <==> v.index > w.index || (v.index == w.index && ge(v.Active(), w.Active())))
  {
    assert AllValid([v, w]);
    match VisitIndex([v, w])
    case Failure(e) => Failure(e)
    case Success(idx) => GreaterEqCase(v, w, idx[0], idx[1], ge)
  }

  /** With the alternatives' `!=` the negation of their `==`, the variant
      `!=` is the negation of the variant `==`, and both throw together. */
  lemma NotEqualIsNotEqual<V>(v: State<V>, w: State<V>, eq: (V, V) -> bool, ne: (V, V) -> bool)
    requires Comparable(v, w)
    requires forall a, b :: ne(a, b) == !eq(a, b)
    ensures NotEqual(v, w, ne).Success? == Equal(v, w, eq).Success?
    ensures NotEqual(v, w, ne).Success? ==> NotEqual(v, w, ne).value == !Equal(v, w, eq).value
  {
  }

  /** With the alternatives' `>` the converse of their `<`, `v > w` is `w < v`. */
  lemma GreaterIsConverseLess<V>(v: State<V>, w: State<V>, lt: (V, V) -> bool, gt: (V, V) -> bool)
    requires Comparable(v, w)
    requires forall a, b :: gt(a, b) == lt(b, a)
    ensures Greater(v, w, gt) == Less(w, v, lt)
  {
  }

  /** With the alternatives' `<=` the negation of their `>`, `v <= w` is
      the negation of `v > w`; likewise `v >= w` and `v < w`. */
  lemma NonStrictAreNegations<V>(v: State<V>, w: State<V>, lt: (V, V) -> bool, gt: (V, V) -> bool,
                                 le: (V, V) -> bool, ge: (V, V) -> bool)
    requires Comparable(v, w)
    requires forall a, b :: le(a, b) == !gt(a, b)
    requires forall a, b :: ge(a, b) == !lt(a, b)
    ensures LessEq(v, w, le).Success? == Greater(v, w, gt).Success?
    ensures LessEq(v, w, le).Success? ==> LessEq(v, w, le).value == !Greater(v, w, gt).value
    ensures GreaterEq(v, w, ge).Success? == Less(v, w, lt).Success?
    ensures GreaterEq(v, w, ge).Success? ==> GreaterEq(v, w, ge).value == !Less(v, w, lt).value
  {
  }

  /**
   * `v == w` as [variant.relops] of C++17 specifies it: a valueless variant
   * equals a valueless one and nothing else. On valued operands it agrees
   * with `Equal`.
   */
  function EqualStd<V>(v: State<V>, w: State<V>, eq: (V, V) -> bool): (b: bool)
    requires Comparable(v, w)
    ensures v.IsValueless() && w.IsValueless() ==> b
    ensures v.IsValueless() != w.IsValueless() ==> !b
    ensures !v.IsValueless() && !w.IsValueless() ==> Equal(v, w, eq) == Success(b)
  {
    if v.index != w.index then false
    else if v.IsValueless() then true
    else eq(v.Active(), w.Active())
  }

  /**
   * `v < w` as [variant.relops] specifies it: nothing is less than a
   * valueless variant, and a valueless variant is less than every valued
   * one. On valued operands it agrees with `Less`.
   */
  function LessStd<V>(v: State<V>, w: State<V>, lt: (V, V) -> bool): (b: bool)
    requires Comparable(v, w)
    ensures w.IsValueless() ==> !b
    ensures v.IsValueless() && !w.IsValueless() ==> b
    ensures !v.IsValueless() && !w.IsValueless() ==> Less(v, w, lt) == Success(b)
  {
    if w.IsValueless() then false
    else if v.IsValueless() then true
    else if v.index < w.index then true
    else if v.index > w.index then false
    else lt(v.Active(), w.Active())
  }

  /**
   * `v <= w` as [variant.relops] specifies it: a valueless variant is
   * less than or equal to everything, and a valued one is not less than
   * or equal to a valueless one. On valued operands it agrees with `LessEq`.
   */
  function LessEqStd<V>(v: State<V>, w: State<V>, le: (V, V) -> bool): (b: bool)
    requires Comparable(v, w)
    ensures v.IsValueless() ==> b
    ensures !v.IsValueless() && w.IsValueless() ==> !b
    ensures !v.IsValueless() && !w.IsValueless() ==> LessEq(v, w, le) == Success(b)
  {
    if v.IsValueless() then true
    else if w.IsValueless() then false
    else if v.index < w.index then true
    else if v.index > w.index then false
    else le(v.Active(), w.Active())
  }

  /**
   * `v >= w` as [variant.relops] specifies it: everything is greater than
   * or equal to a valueless variant, and a valueless one is not greater than
   * or equal to a valued one. On valued operands it agrees with `GreaterEq`.
   */
  function GreaterEqStd<V>(v: State<V>, w: State<V>, ge: (V, V) -> bool): (b: bool)
    requires Comparable(v, w)
    ensures w.IsValueless() ==> b
    ensures v.IsValueless() && !w.IsValueless() ==> !b
    ensures !v.IsValueless() && !w.IsValueless() ==> GreaterEq(v, w, ge) == Success(b)
  {
    if w.IsValueless() then true
    else if v.IsValueless() then false
    else if v.index > w.index then true
    else if v.index < w.index then false
    else ge(v.Active(), w.Active())
  }

  /** `v != w` as [variant.relops] specifies it: the negation of the
      corrected `==`. On valued operands it agrees with `NotEqual` when the
      objects' `!=` negates their `==`. */
  function NotEqualStd<V>(v: State<V>, w: State<V>, ne: (V, V) -> bool): (b: bool)
    requires Comparable(v, w)
    ensures v.IsValueless() && w.IsValueless() ==> !b
    ensures v.IsValueless() != w.IsValueless() ==> b
    ensures !v.IsValueless() && !w.IsValueless() ==> NotEqual(v, w, ne) == Success(b)
  {
    if v.index != w.index then true
    else if v.IsValueless() then false
    else ne(v.Active(), w.Active())
  }

  /** `v > w` as [variant.relops] specifies it: a valueless variant is
      greater than nothing, and every valued variant is greater than a
      valueless one. On valued operands it agrees with `Greater`. */
  function GreaterStd<V>(v: State<V>, w: State<V>, gt: (V, V) -> bool): (b: bool)
    requires Comparable(v, w)
    ensures v.IsValueless() ==> !b
    ensures !v.IsValueless() && w.IsValueless() ==> b
    ensures !v.IsValueless() && !w.IsValueless() ==> Greater(v, w, gt) == Success(b)
  {
    if v.IsValueless() then false
    else if w.IsValueless() then true
    else if v.index > w.index then true
    else if v.index < w.index then false
    else gt(v.Active(), w.Active())
  }

  /** Where the code and [variant.relops] part ways: comparing with a
      valueless variant throws, so the valueless branches of the visitor
      lambdas are never taken, while the standard gives each comparison a
      value. */
  lemma ValuelessComparisonsThrow<V>(n: nat, i: nat, x: V, eq: (V, V) -> bool, ne: (V, V) -> bool,
                                     lt: (V, V) -> bool, gt: (V, V) -> bool, le: (V, V) -> bool, ge: (V, V) -> bool)
    requires i < n <= NPOS
    ensures Equal(Valueless(n), Valueless(n), eq) == Failure(BadVariantAccess)
    ensures EqualStd(Valueless<V>(n), Valueless(n), eq)
    ensures NotEqual(Valueless(n), Holding(n, i, x), ne) == Failure(BadVariantAccess)
    ensures NotEqualStd(Valueless(n), Holding(n, i, x), ne)
    ensures Greater(Holding(n, i, x), Valueless(n), gt) == Failure(BadVariantAccess)
    ensures GreaterStd(Holding(n, i, x), Valueless(n), gt)
    ensures Less(Valueless(n), Holding(n, i, x), lt) == Failure(BadVariantAccess)
    ensures LessStd(Valueless(n), Holding(n, i, x), lt)
    ensures LessEq(Valueless(n), Valueless(n), le) == Failure(BadVariantAccess)
    ensures LessEqStd(Valueless<V>(n), Valueless(n), le)
    ensures GreaterEq(Valueless(n), Valueless(n), ge) == Failure(BadVariantAccess)
    ensures GreaterEqStd(Valueless<V>(n), Valueless(n), ge)
  {
  }

  /** When the objects' own `==` is reflexive, so is the corrected `==`,
      valueless variants included. */
  lemma EqualStdIsReflexive<V>(v: State<V>, eq: (V, V) -> bool)
    requires v.Valid()
    requires forall a :: eq(a, a)
    ensures EqualStd(v, v, eq)
  {
  }

  /** When the objects' own `<` is a strict order, the corrected `<` on
      variants is one too: irreflexive and transitive. */
  lemma {:induction false} LessStdIsStrictOrder<V>(u: State<V>, v: State<V>, w: State<V>, lt: (V, V) -> bool)
    requires Comparable(u, v) && Comparable(v, w)
    requires forall a :: !lt(a, a)
    requires forall a, b, c :: lt(a, b) && lt(b, c) ==> lt(a, c)
    ensures !LessStd(u, u, lt)
    ensures LessStd(u, v, lt) && LessStd(v, w, lt) ==> LessStd(u, w, lt)
  {
    if LessStd(u, v, lt) && LessStd(v, w, lt) && !u.IsValueless() && u.index == v.index && v.index == w.index {
      assert lt(u.Active(), v.Active()) && lt(v.Active(), w.Active());
    }
  }

  /** When the objects' own `<` is a strict total order, the corrected `<`
      on variants is one too: of `v < w`, `v == w` and `w < v` exactly one
      holds, valueless variants included. */
  lemma LessStdIsTrichotomous<V>(v: State<V>, w: State<V>, lt: (V, V) -> bool)
    requires Comparable(v, w)
    requires forall a :: !lt(a, a)
    requires forall a, b, c :: lt(a, b) && lt(b, c) ==> lt(a, c)
    requires forall a, b :: a != b ==> lt(a, b) || lt(b, a)
    ensures LessStd(v, w, lt) || v == w || LessStd(w, v, lt)
    ensures !(LessStd(v, w, lt) && v == w) && !(LessStd(w, v, lt) && v == w)
    ensures !(LessStd(v, w, lt) && LessStd(w, v, lt))
  {
    NormalForm(v);
    NormalForm(w);
    if !v.IsValueless() && !w.IsValueless() && v.index == w.index && lt(v.Active(), w.Active()) {
      assert !lt(w.Active(), v.Active());
    }
  }
}

=== FILE: variant_storage.dfy ===
/**
 * The storage layer of the variant (the `variant_storage_*_base` chain):
 * `index_` together with the union of cells, and the special members that
 * keep the two consistent: `reset`, the destructor, the constructors and the
 * copy and move assignment operators. `emplace`, which the assignment
 * operators call on the derived `variant`, lives here too, since in C++ it
 * only touches these two members.
 *
 * Each state-changing member of `Variant` is proved against a pure
 * function on `State` snapshots; what the source promises is proved about
 * those functions.
 */
module VariantStorage {
  import opened Wrappers
  import opened UninitValue
  import opened VariantUnion
  import opened VariantUtils

  /** The state a one-variant operation leaves behind, and how it ended. */
  datatype Step<V> = Step(state: State<V>, status: Status)

  /** The states a two-variant operation leaves behind (destination, source). */
  datatype Transfer<V> = Transfer(dst: State<V>, src: State<V>, status: Status)

  /** `reset()`: a valued variant loses its object and becomes valueless; a
      valueless one is left alone. */
  function ResetState<V>(s: State<V>): (r: State<V>)
    requires s.Valid()
    ensures r.Valid() && r.IsValueless() && r.Size() == s.Size()
    ensures forall k :: 0 <= k < r.Size() ==> r.cells[k].None?
    ensures s.IsValueless() ==> r == s
  {
    NormalForm(s);
    if s.index != NPOS then Valueless(s.Size()) else s
  }

  /** The source after its object was moved out: same index, the live cell
      holds the moved-from `residue`. A valueless source has nothing to move. */
  function MovedFrom<V>(s: State<V>, residue: V): (r: State<V>)
    requires s.Valid()
    ensures r.Valid() && r.index == s.index && r.Size() == s.Size()
    ensures !s.IsValueless() ==> r.Active() == residue
    ensures s.IsValueless() ==> r == s
  {
    if s.IsValueless() then s else State(s.index, s.cells[s.index := Some(residue)])
  }

  /** The active object replaced in place by `v`; the index is unchanged. */
  function AssignedInPlace<V>(s: State<V>, v: V): (r: State<V>)
    requires s.Valid() && !s.IsValueless()
    ensures r == Holding(s.Size(), s.index, v)
  {
    var r := State(s.index, s.cells[s.index := Some(v)]);
    NormalForm(r);
    r
  }

  /**
   * `emplace<i>(args...)`: reset first, construct alternative `i`, and set
   * `index_` only once the construction has returned. A throwing
   * construction therefore leaves the variant valueless.
   */
  function Emplaced<V>(s: State<V>, i: nat, v: V, throws: bool): (r: Step<V>)
    requires s.Valid() && i < s.Size()
    ensures r.state.Valid() && r.state.Size() == s.Size()
    ensures r.status == Done <==> !throws
    ensures r.status == Done ==> r.state == Holding(s.Size(), i, v)
    ensures r.status != Done ==> r.status == Threw(ConstructorThrew) && r.state.IsValueless()
  {
    var cleared := ResetState(s);
    if throws then
      Step(cleared, Threw(ConstructorThrew))
    else
      Step(State(i, cleared.cells[i := Some(v)]), Done)
  }

  /**
   * Copy assignment as the code does it. A valueless source makes the
   * destination valueless (a no-op when it already is). Otherwise both
   * indices go through `visit_index`, which throws `bad_variant_access` for
   * a valueless destination; equal indices assign in place, different ones
   * emplace a copy of the source's object.
   */
  function CopyAssigned<V>(dst: State<V>, src: State<V>, throws: bool): (r: Step<V>)
    requires dst.Valid() && src.Valid() && dst.Size() == src.Size()
    ensures r.state.Valid() && r.state.Size() == dst.Size()
    ensures r.status == Done ==> r.state == src
    ensures r.status == Threw(BadVariantAccess) <==> dst.IsValueless() && !src.IsValueless()
    ensures r.status == Threw(BadVariantAccess) ==> r.state == dst
    ensures r.status == Threw(ConstructorThrew) <==>
              !dst.IsValueless() && !src.IsValueless() && dst.index != src.index && throws
    ensures r.status == Threw(ConstructorThrew) ==> r.state.IsValueless()
  {
    NormalForm(src);
    if src.IsValueless() then
      if dst.IsValueless() then Step(dst, Done) else Step(ResetState(dst), Done)
    else
      assert AllValid([dst, src]);
      match VisitIndex([dst, src])
      case Failure(e) => Step(dst, Threw(e))
      case Success(idx) =>
        if idx[0] == idx[1] then
          Step(AssignedInPlace(dst, Get(src, idx[1]).value), Done)
        else
          Emplaced(dst, idx[1], Get(src, idx[1]).value, throws)
  }

  /**
   * Move assignment as the code does it: the same three branches as copy
   * assignment, with the source's object moved out (it keeps its index and
   * the moved-from `residue`) whenever the move has happened.
   */
  function MoveAssigned<V>(dst: State<V>, src: State<V>, residue: V, throws: bool): (r: Transfer<V>)
    requires dst.Valid() && src.Valid() && dst.Size() == src.Size()
    ensures r.dst.Valid() && r.dst.Size() == dst.Size()
    ensures r.src.index == src.index
    ensures r.status == Done ==> r.dst == src && r.src == MovedFrom(src, residue)
    ensures r.status != Done ==> r.src == src
    ensures r.status == Threw(BadVariantAccess) <==> dst.IsValueless() && !src.IsValueless()
    ensures r.status == Threw(BadVariantAccess) ==> r.dst == dst
    ensures r.status == Threw(ConstructorThrew) <==>
              !dst.IsValueless() && !src.IsValueless() && dst.index != src.index && throws
    ensures r.status == Threw(ConstructorThrew) ==> r.dst.IsValueless()
  {
    NormalForm(src);
    if src.IsValueless() then
      if dst.IsValueless() then Transfer(dst, src, Done) else Transfer(ResetState(dst), src, Done)
    else
      assert AllValid([dst, src]);
      match VisitIndex([dst, src])
      case Failure(e) => Transfer(dst, src, Threw(e))
      case Success(idx) =>
        var moved := MovedFrom(src, residue);
        if idx[0] == idx[1] then
          Transfer(AssignedInPlace(dst, Get(src, idx[1]).value), moved, Done)
        else
          var e := Emplaced(dst, idx[1], Get(src, idx[1]).value, throws);
          Transfer(e.state, if e.status == Done then moved else src, e.status)
  }

  /**
   * Copy assignment as [variant.assign] of C++17 specifies it, with
   * `nothrowCopy` and `nothrowMove` saying whether the source's alternative
   * is nothrow copy- and move-constructible. A valued source assigned to a
   * valueless destination is handled like any other change of alternative.
   * A change of alternative emplaces a copy when copying cannot throw or
   * moving could; otherwise a temporary copy is built first and then
   * move-assigned, so a throwing copy leaves the destination untouched.
   */
  function CopyAssignedStd<V>(dst: State<V>, src: State<V>, nothrowCopy: bool, nothrowMove: bool, throws: bool)
    : (r: Step<V>)
    requires dst.Valid() && src.Valid() && dst.Size() == src.Size() && (nothrowCopy ==> !throws)
    ensures r.state.Valid() && r.state.Size() == dst.Size()
    ensures r.status == Done <==> src.IsValueless() || dst.index == src.index || !throws
    ensures r.status == Done ==> r.state == src
    ensures r.status != Done ==> r.status == Threw(ConstructorThrew)
    ensures r.status != Done && !nothrowMove ==> r.state.IsValueless()
    ensures r.status != Done && nothrowMove ==> r.state == dst
  {
    NormalForm(src);
    if src.IsValueless() then
      Step(ResetState(dst), Done)
    else if dst.index == src.index then
      Step(AssignedInPlace(dst, src.Active()), Done)
    else if nothrowCopy || !nothrowMove then
      Emplaced(dst, src.index, src.Active(), throws)
    else if throws then
      // the temporary copy throws before the destination is touched
      Step(dst, Threw(ConstructorThrew))
    else
      var m := MoveAssignedStd(dst, src, src.Active(), false);
      Step(m.dst, m.status)
  }

  /**
   * Move assignment as [variant.assign] of C++17 specifies it: a valued
   * source moved into a valueless destination is emplaced like any other
   * change of alternative.
   */
  function MoveAssignedStd<V>(dst: State<V>, src: State<V>, residue: V, throws: bool): (r: Transfer<V>)
    requires dst.Valid() && src.Valid() && dst.Size() == src.Size()
    ensures r.dst.Valid() && r.dst.Size() == dst.Size() && r.src.index == src.index
    ensures r.status == Done <==> src.IsValueless() || dst.index == src.index || !throws
    ensures r.status == Done ==> r.dst == src && r.src == MovedFrom(src, residue)
    ensures r.status != Done ==> r.status == Threw(ConstructorThrew) && r.dst.IsValueless() && r.src == src
  {
    NormalForm(src);
    if src.IsValueless() then
      Transfer(ResetState(dst), src, Done)
    else if dst.index == src.index then
      Transfer(AssignedInPlace(dst, src.Active()), MovedFrom(src, residue), Done)
    else
      var e := Emplaced(dst, src.index, src.Active(), throws);
      Transfer(e.state, if e.status == Done then MovedFrom(src, residue) else src, e.status)
  }

  /** Where the code and [variant.assign] part ways: copy-assigning a valued
      variant to a valueless one throws instead of copying. */
  lemma AssignIntoValuelessThrows<V>(n: nat, i: nat, v: V)
    requires i < n <= NPOS
    ensures CopyAssigned(Valueless(n), Holding(n, i, v), false) == Step(Valueless(n), Threw(BadVariantAccess))
    ensures CopyAssignedStd(Valueless(n), Holding(n, i, v), true, true, false) == Step(Holding(n, i, v), Done)
  {
  }

  /** The same for move assignment: the code throws and moves nothing,
      where [variant.assign] moves the object over. */
  lemma MoveIntoValuelessThrows<V>(n: nat, i: nat, v: V, residue: V)
    requires i < n <= NPOS
    ensures MoveAssigned(Valueless(n), Holding(n, i, v), residue, false)
              == Transfer(Valueless(n), Holding(n, i, v), Threw(BadVariantAccess))
    ensures MoveAssignedStd(Valueless(n), Holding(n, i, v), residue, false)
              == Transfer(Holding(n, i, v), Holding(n, i, residue), Done)
  {
    NormalForm(MovedFrom(Holding(n, i, v), residue));
  }

  /** Where the code and [variant.assign] part ways a second time: the code
      always emplaces a copy on a change of alternative, so when the copy may
      throw but a move cannot, a throw leaves the destination valueless
      where the standard's temporary copy leaves it untouched. */
  lemma CopyAssignThrowLosesValue<V>(n: nat, v: V, x: V)
    requires 2 <= n <= NPOS
    ensures CopyAssigned(Holding(n, 0, v), Holding(n, 1, x), true) == Step(Valueless(n), Threw(ConstructorThrew))
    ensures CopyAssignedStd(Holding(n, 0, v), Holding(n, 1, x), false, true, true)
              == Step(Holding(n, 0, v), Threw(ConstructorThrew))
  {
    NormalForm(CopyAssigned(Holding(n, 0, v), Holding(n, 1, x), true).state);
  }

  /** Outside those cases the code and [variant.assign] agree: into a valued
      destination, or from a valueless source, when the copy is emplaced or
      does not throw, `CopyAssigned` is `CopyAssignedStd`. */
  lemma CopyAssignedAgreesWithStd<V>(dst: State<V>, src: State<V>, nothrowCopy: bool, nothrowMove: bool, throws: bool)
    requires dst.Valid() && src.Valid() && dst.Size() == src.Size() && (nothrowCopy ==> !throws)
    requires !dst.IsValueless() || src.IsValueless()
    requires nothrowCopy || !nothrowMove || !throws
    ensures CopyAssigned(dst, src, throws) == CopyAssignedStd(dst, src, nothrowCopy, nothrowMove, throws)
  {
    var code, std := CopyAssigned(dst, src, throws), CopyAssignedStd(dst, src, nothrowCopy, nothrowMove, throws);
    if code.status != Done {
      NormalForm(code.state);
      NormalForm(std.state);
    }
  }

  /** Into a valued destination, or from a valueless source, `MoveAssigned`
      is `MoveAssignedStd`. */
  lemma MoveAssignedAgreesWithStd<V>(dst: State<V>, src: State<V>, residue: V, throws: bool)
    requires dst.Valid() && src.Valid() && dst.Size() == src.Size()
    requires !dst.IsValueless() || src.IsValueless()
    ensures MoveAssigned(dst, src, residue, throws) == MoveAssignedStd(dst, src, residue, throws)
  {
    var code, std := MoveAssigned(dst, src, residue, throws), MoveAssignedStd(dst, src, residue, throws);
    if code.status != Done {
      NormalForm(code.dst);
      NormalForm(std.dst);
    }
  }

  /** The cell the destructor's `reset()` destroys: the one `visit_index`
      resolves `index_` to, none when `index_` is `npos`. On a valid state
      that is the live cell. */
  function ResetTarget<V>(s: State<V>): (r: Option<nat>)
    requires s.index < |s.cells| || s.index == NPOS
    ensures r.Some? <==> !s.IsValueless()
    ensures r.Some? ==> r.value < |s.cells|
    ensures s.Valid() && r.Some? ==> s.cells[r.value].Some?
    ensures s.Valid() && r.None? ==> forall k :: 0 <= k < |s.cells| ==> s.cells[k].None?
  {
    if s.index == NPOS then None else Some(s.index)
  }

  /**
   * The object under construction in the copy or move constructor, as the
   * code builds it. The bases are default-built first, which leaves
   * `index_ == 0` and no live cell; a valued source's object is then copied
   * (or moved) into its cell, and `index_` is copied last. When that copy
   * throws, the object is unwound in the default-built state.
   */
  function ConstructedFrom<V>(src: State<V>, throws: bool): (r: Step<V>)
    requires src.Valid()
    ensures r.state.Size() == src.Size() && (r.state.index < r.state.Size() || r.state.index == NPOS)
    ensures r.status == Done <==> src.IsValueless() || !throws
    ensures r.status == Done ==> r.state == src
    ensures r.status != Done ==>
              && r.status == Threw(ConstructorThrew) && r.state.index == 0
              && forall k :: 0 <= k < r.state.Size() ==> r.state.cells[k].None?
  {
    if src.IsValueless() || !throws then Step(src, Done)
    else Step(State(0, seq(src.Size(), _ => None)), Threw(ConstructorThrew))
  }

  /** Where the code goes wrong: when copying (or moving) the source's
      object throws, the partly built object violates the one-live-cell
      invariant, and its base destructor's `reset()` destroys cell 0,
      which holds no object. */
  lemma ThrowingConstructionResetsEmptyCell<V>(n: nat, i: nat, v: V)
    requires i < n <= NPOS
    ensures ConstructedFrom(Holding(n, i, v), true).status == Threw(ConstructorThrew)
    ensures !ConstructedFrom(Holding(n, i, v), true).state.Valid()
    ensures ResetTarget(ConstructedFrom(Holding(n, i, v), true).state) == Some(0)
    ensures ConstructedFrom(Holding(n, i, v), true).state.cells[0].None?
  {
    var unwound := ConstructedFrom(Holding(n, i, v), true).state;
    assert unwound.index == 0 && unwound.cells[0].None?;
  }

  /**
   * The copy or move constructor with the bases built valueless
   * (`index_ == npos`) instead: a throwing copy unwinds a valid, valueless
   * object whose `reset()` destroys nothing.
   */
  function ConstructedFromStd<V>(src: State<V>, throws: bool): (r: Step<V>)
    requires src.Valid()
    ensures r.state.Valid() && r.state.Size() == src.Size()
    ensures r.status == Done <==> src.IsValueless() || !throws
    ensures r.status == Done ==> r.state == src
    ensures r.status != Done ==>
              r.status == Threw(ConstructorThrew) && r.state.IsValueless() && ResetTarget(r.state).None?
  {
    if src.IsValueless() || !throws then Step(src, Done)
    else Step(Valueless(src.Size()), Threw(ConstructorThrew))
  }

  /** When the copy does not throw, the code and the corrected constructor
      build the same object. */
  lemma ConstructedFromAgreesWithStd<V>(src: State<V>, throws: bool)
    requires src.Valid() && (src.IsValueless() || !throws)
    ensures ConstructedFrom(src, throws) == ConstructedFromStd(src, throws)
  {
  }

  /** Move assignment leaves the destination exactly as copy assignment
      would, and ends the same way; only the source differs. */
  lemma MoveAssignedDstIsCopy<V>(dst: State<V>, src: State<V>, residue: V, throws: bool)
    requires dst.Valid() && src.Valid() && dst.Size() == src.Size()
    ensures MoveAssigned(dst, src, residue, throws).dst == CopyAssigned(dst, src, throws).state
    ensures MoveAssigned(dst, src, residue, throws).status == CopyAssigned(dst, src, throws).status
  {
    var m, c := MoveAssigned(dst, src, residue, throws), CopyAssigned(dst, src, throws);
    if m.status == Threw(ConstructorThrew) {
      NormalForm(m.dst);
      NormalForm(c.state);
    } else if m.status == Done && src.IsValueless() {
      NormalForm(dst);
    }
  }

  /**
   * A variant object: the storage layers and the facade share `index_` and
   * the union, so one class holds both. `index` is `index_`; `NPOS` marks
   * the valueless state.
   */
  class Variant<V> {
    const storage: Union<V>
    var index: nat

    /** The one-live-cell invariant over the real fields. */
    ghost predicate Valid()
      reads this, storage.cells
    {
      storage.Valid() && View().Valid()
    }

    /** The snapshot of this variant. */
    function View(): State<V>
      reads this, storage.cells
    {
      State(index, storage.Values())
    }

    /** The two variants own different storage. */
    predicate Separate(other: Variant<V>) {
      storage.Disjoint(other.storage)
    }

    /** `index()`: `index_`, which names the live cell unless it is `npos`. */
    function Index(): (i: nat)
      reads this, storage.cells
      ensures Valid() ==> (i < |storage.cells| <==> !View().IsValueless())
      ensures Valid() && i < |storage.cells| ==> storage.cells[i].value.Some?
    {
      index
    }

    /** `valueless_by_exception()`: `index_ == variant_npos`, which holds
        exactly when no cell holds a live object. */
    predicate ValuelessByException()
      reads this, storage.cells
      ensures Valid() ==>
        (ValuelessByException() <==> forall k :: 0 <= k < |storage.cells| ==> storage.cells[k].value.None?)
    {
      assert Valid() && index != NPOS ==> storage.Values()[index].Some?;
      index == NPOS
    }

    /** `variant_storage_dtor_base(in_place_index<i>, args...)`: cell `i` is
        constructed from the arguments and `index_` is `i`. */
    constructor InPlace(n: nat, i: nat, v: V)
      requires i < n <= NPOS
      ensures Valid() && View() == Holding(n, i, v)
      ensures fresh(storage) && forall k :: 0 <= k < n ==> fresh(storage.cells[k])
    {
      storage := new Union.InPlace(n, i, v);
      index := i;
      new;
      assert View().cells == Holding(n, i, v).cells;
    }

    /** The default constructor, which is the `in_place_index<0>` one with no
        arguments: alternative 0 default-constructed (to `d`), `index_ == 0`. */
    constructor Default(n: nat, d: V)
      requires 1 <= n <= NPOS
      ensures Valid() && View() == Holding(n, 0, d)
      ensures fresh(storage) && forall k :: 0 <= k < n ==> fresh(storage.cells[k])
    {
      storage := new Union.InPlaceDefault(n, d);
      index := 0;
      new;
      assert View().cells == Holding(n, 0, d).cells;
    }

    /**
     * The copy constructor: the storage starts out empty; unless the source
     * is valueless, `visit_index` finds its index and the matching cell is
     * copy-constructed; then `index_` is copied.
     */
    constructor Copy(other: Variant<V>)
      requires other.Valid()
      ensures Valid() && View() == other.View()
      ensures fresh(storage) && forall k :: 0 <= k < |storage.cells| ==> fresh(storage.cells[k])
    {
      var u := CopiedStorage(other);
      storage := u;
      index := other.index;
    }

    /**
     * The move constructor: as the copy constructor, but the cell is
     * move-constructed. The source keeps its index; its live cell holds
     * the moved-from `residue`.
     */
    constructor Move(other: Variant<V>, residue: V)
      requires other.Valid()
      modifies other.storage.cells
      ensures Valid() && View() == old(other.View())
      ensures other.Valid() && other.View() == MovedFrom(old(other.View()), residue)
      ensures fresh(storage) && forall k :: 0 <= k < |storage.cells| ==> fresh(storage.cells[k])
    {
      var u := MovedStorage(other, residue);
      storage := u;
      index := other.index;
    }

    /** The storage the copy constructor builds: a default-constructed
        union in which, unless the source is valueless, `visit_index` finds
        the source's index and that one cell is copy-constructed. */
    static method CopiedStorage(other: Variant<V>) returns (u: Union<V>)
      requires other.Valid()
      ensures fresh(u) && u.Valid() && forall k :: 0 <= k < |u.cells| ==> fresh(u.cells[k])
      ensures u.Values() == other.View().cells
    {
      u := new Union.Empty(|other.storage.cells|);
      if !other.ValuelessByException() {
        assert AllValid([other.View()]);
        var found := VisitIndex([other.View()]);
        u.ConstructCopy(0, found.value[0], other.storage);
      }
      assert forall k :: 0 <= k < |u.cells| ==> u.Values()[k] == other.View().cells[k];
    }

    /** The storage the move constructor builds: a default-constructed
        union in which, unless the source is valueless, `visit_index` finds
        the source's index and that one cell is move-constructed. */
    static method MovedStorage(other: Variant<V>, residue: V) returns (u: Union<V>)
      requires other.Valid()
      modifies other.storage.cells
      ensures fresh(u) && u.Valid() && forall k :: 0 <= k < |u.cells| ==> fresh(u.cells[k])
      ensures u.Values() == old(other.View()).cells
      ensures other.Valid() && other.View() == MovedFrom(old(other.View()), residue)
    {
      u := new Union.Empty(|other.storage.cells|);
      ghost var src := old(other.View());
      assert other.View() == src;
      if !other.ValuelessByException() {
        assert AllValid([other.View()]);
        var found := VisitIndex([other.View()]);
        u.ConstructMove(0, found.value[0], other.storage, residue);
      }
      assert forall k :: 0 <= k < |u.cells| ==> u.Values()[k] == src.cells[k];
      assert other.View().cells == MovedFrom(src, residue).cells;
    }

    /**
     * `reset()`: when a value is held, `visit_index` finds the active index,
     * that one cell is destroyed, and `index_` becomes `variant_npos`.
     */
    method Reset()
      requires Valid()
      modifies this, storage.cells
      ensures Valid() && View() == ResetState(old(View()))
    {
      if index != NPOS {
        assert AllValid([View()]);
        var found := VisitIndex([View()]);
        storage.Reset(0, found.value[0]);
        index := NPOS;
        assert View().cells == ResetState(old(View())).cells;
      }
    }

    /** The destructor of the non-trivially-destructible storage: `reset()`,
        so the one live object is destroyed and no cell stays live. */
    method Destroy()
      requires Valid()
      modifies this, storage.cells
      ensures Valid() && View().IsValueless()
      ensures forall k :: 0 <= k < |storage.cells| ==> storage.cells[k].value.None?
    {
      Reset();
    }

    /**
     * `emplace<i>(args...)`: `reset()`, construct cell `i`, and only then set
     * `index_ = i`. A throwing construction leaves the variant valueless.
     */
    method Emplace(i: nat, v: V, throws: bool) returns (st: Status)
      requires Valid() && i < |storage.cells|
      modifies this, storage.cells
      ensures Valid() && Step(View(), st) == Emplaced(old(View()), i, v, throws)
    {
      Reset();
      var ok, _ := storage.Emplace(0, i, v, throws);
      if !ok {
        return Threw(ConstructorThrew);
      }
      index := i;
      st := Done;
      assert View().cells == Emplaced(old(View()), i, v, throws).state.cells;
    }

    /**
     * The copy assignment operator of the storage: the three branches of
     * `CopyAssigned`. The source is only read.
     */
    method CopyAssign(other: Variant<V>, throws: bool) returns (st: Status)
      requires Valid() && other.Valid() && this != other && Separate(other)
      requires |other.storage.cells| == |storage.cells|
      modifies this, storage.cells
      ensures Valid() && Step(View(), st) == CopyAssigned(old(View()), old(other.View()), throws)
      ensures other.View() == old(other.View())
    {
      if other.ValuelessByException() {
        if ValuelessByException() {
          return Done;
        }
        Reset();
        return Done;
      }
      assert AllValid([View(), other.View()]);
      var found := VisitIndex([View(), other.View()]);
      if found.Failure? {
        return Threw(found.error);
      }
      var i, j := found.value[0], found.value[1];
      if i == j {
        CopySameIndex(other);
        st := Done;
      } else {
        st := Emplace(j, other.storage.Get(j), throws);
      }
    }

    /** The same-index branch of copy assignment: the active object is
        copy-assigned in place; the source is only read. */
    method CopySameIndex(other: Variant<V>)
      requires Valid() && other.Valid() && Separate(other)
      requires |other.storage.cells| == |storage.cells|
      requires !View().IsValueless() && index == other.index
      modifies storage.cells
      ensures Valid() && View() == AssignedInPlace(old(View()), old(other.View()).Active())
      ensures other.View() == old(other.View())
    {
      storage.GetAt(0, index).Assign(other.storage.Get(index));
      assert View().cells == AssignedInPlace(old(View()), old(other.View()).Active()).cells;
    }

    /**
     * The move assignment operator of the storage: the three branches of
     * `MoveAssigned`. Once the source's object has been moved, the source
     * keeps its index and the moved-from `residue`.
     */
    method MoveAssign(other: Variant<V>, residue: V, throws: bool) returns (st: Status)
      requires Valid() && other.Valid() && this != other && Separate(other)
      requires |other.storage.cells| == |storage.cells|
      modifies this, storage.cells, other.storage.cells
      ensures Valid() && other.Valid()
      ensures Transfer(View(), other.View(), st) == MoveAssigned(old(View()), old(other.View()), residue, throws)
    {
      if other.ValuelessByException() {
        if ValuelessByException() {
          return Done;
        }
        Reset();
        return Done;
      }
      assert AllValid([View(), other.View()]);
      var found := VisitIndex([View(), other.View()]);
      if found.Failure? {
        return Threw(found.error);
      }
      var i, j := found.value[0], found.value[1];
      if i == j {
        MoveSameIndex(other, residue);
        st := Done;
      } else {
        st := MoveOtherIndex(other, residue, throws);
      }
    }

    /** The same-index branch of move assignment: the active object is
        move-assigned in place, and the source keeps the residue. */
    method MoveSameIndex(other: Variant<V>, residue: V)
      requires Valid() && other.Valid() && Separate(other)
      requires |other.storage.cells| == |storage.cells|
      requires !View().IsValueless() && index == other.index
      modifies storage.cells, other.storage.cells
      ensures Valid() && other.Valid()
      ensures View() == AssignedInPlace(old(View()), old(other.View()).Active())
      ensures other.View() == MovedFrom(old(other.View()), residue)
    {
      var moving := other.storage.Get(index);
      storage.GetAt(0, index).Assign(moving);
      other.storage.GetAt(0, index).Assign(residue);
      assert View().cells == AssignedInPlace(old(View()), old(other.View()).Active()).cells;
      assert other.View().cells == MovedFrom(old(other.View()), residue).cells;
    }

    /** The index-changing branch of move assignment: `emplace` the
        source's alternative from its moved object; once that has happened
        the source keeps the residue. */
    method MoveOtherIndex(other: Variant<V>, residue: V, throws: bool) returns (st: Status)
      requires Valid() && other.Valid() && this != other && Separate(other)
      requires |other.storage.cells| == |storage.cells|
      requires !other.View().IsValueless()
      modifies this, storage.cells, other.storage.cells
      ensures Valid() && other.Valid()
      ensures Step(View(), st) == Emplaced(old(View()), old(other.index), old(other.View()).Active(), throws)
      ensures other.View() == if st == Done then MovedFrom(old(other.View()), residue) else old(other.View())
    {
      var j := other.index;
      st := Emplace(j, other.storage.Get(j), throws);
      if st == Done {
        other.storage.GetAt(0, j).Assign(residue);
        assert other.View().cells == MovedFrom(old(other.View()), residue).cells;
      }
    }
  }
}

=== FILE: variant_union.dfy ===
/**
 * The storage of all alternatives (`variant_union<First, Rest...>`): a
 * recursive union whose `first` member is the cell of its first alternative
 * and whose `rest` member is the union of the remaining ones.
 *
 * The chain is laid out as the sequence `cells`: `cells[k]` is the `first`
 * cell of the sub-union reached after `k` steps through `rest`. Each
 * recursive operation takes the `level` of the sub-union it is applied to
 * (0 for the whole union) and an index `i` relative to it, and peels `i`
 * by one per level until it reaches 0, exactly as the template recursion
 * does. Only the cell it reaches is touched.
 */
module VariantUnion {
  import opened Wrappers
  import opened UninitValue

  class Union<V> {
    /** The cells of the chain, one per alternative. */
    const cells: seq<Cell<V>>

    /** At least one alternative, and every alternative has its own cell. */
    ghost predicate Valid() {
      && 1 <= |cells|
      && forall a, b :: 0 <= a < b < |cells| ==> cells[a] != cells[b]
    }

    /** This union and `other` share no cell (they are different objects). */
    predicate Disjoint(other: Union<V>) {
      forall a, b :: 0 <= a < |cells| && 0 <= b < |other.cells| ==> cells[a] != other.cells[b]
    }

    /** The content of every cell, alternative by alternative. */
    function Values(): (r: seq<Option<V>>)
      reads cells
      ensures |r| == |cells| && forall k :: 0 <= k < |cells| ==> r[k] == cells[k].value
    {
      seq(|cells|, k requires 0 <= k < |cells| reads cells => cells[k].value)
    }

    /** `variant_union()`: initialises only the `rest` chain; no
        alternative's object is constructed. */
    constructor Empty(n: nat)
      requires 1 <= n
      ensures Valid() && |cells| == n
      ensures forall k :: 0 <= k < n ==> fresh(cells[k]) && cells[k].value == None
    {
      var cs := Blank(n);
      cells := cs;
    }

    /** `variant_union(in_place_index<i>, args...)`: exactly cell `i` is
        constructed, from the arguments. */
    constructor InPlace(n: nat, i: nat, v: V)
      requires i < n
      ensures Valid() && |cells| == n
      ensures forall k :: 0 <= k < n ==> fresh(cells[k])
      ensures forall k :: 0 <= k < n ==> cells[k].value == if k == i then Some(v) else None
    {
      var cs := Chain(n, i, v);
      cells := cs;
    }

    /** `variant_union(in_place_index<0>)` with no arguments: the first
        cell is default-constructed, producing `d`. */
    constructor InPlaceDefault(n: nat, d: V)
      requires 1 <= n
      ensures Valid() && |cells| == n
      ensures forall k :: 0 <= k < n ==> fresh(cells[k])
      ensures forall k :: 0 <= k < n ==> cells[k].value == if k == 0 then Some(d) else None
    {
      var first := new Cell.Default(d);
      var rest := Blank(n - 1);
      cells := [first] + rest;
    }

    /** The chain built by the default constructor: `n` fresh, distinct,
        unconstructed cells. */
    static method Blank(n: nat) returns (cs: seq<Cell<V>>)
      ensures |cs| == n
      ensures forall k :: 0 <= k < n ==> fresh(cs[k]) && cs[k].value == None
      ensures forall a, b :: 0 <= a < b < n ==> cs[a] != cs[b]
      decreases n
    {
      if n == 0 {
        return [];
      }
      var first := new Cell.Uninit();
      var rest := Blank(n - 1);
      cs := [first] + rest;
    }

    /** The chain built by the `in_place_index<i>` constructor: each level
        forwards to `rest` with `i - 1` until `i` is 0, where `first` is
        built from the arguments. */
    static method Chain(n: nat, i: nat, v: V) returns (cs: seq<Cell<V>>)
      requires i < n
      ensures |cs| == n
      ensures forall k :: 0 <= k < n ==> fresh(cs[k])
      ensures forall k :: 0 <= k < n ==> cs[k].value == if k == i then Some(v) else None
      ensures forall a, b :: 0 <= a < b < n ==> cs[a] != cs[b]
      decreases i
    {
      if i == 0 {
        var first := new Cell.FromArgs(v);
        var rest := Blank(n - 1);
        cs := [first] + rest;
      } else {
        var first := new Cell.Uninit();
        var rest := Chain(n - 1, i - 1, v);
        cs := [first] + rest;
      }
    }

    /**
     * `construct<i>(other const&)` on the sub-union at `level`: copy the
     * other union's cell into the same cell of this one. No other cell of
     * either union changes.
     */
    method ConstructCopy(level: nat, i: nat, other: Union<V>)
      requires Valid() && other.Valid() && Disjoint(other) && |other.cells| == |cells|
      requires level + i < |cells|
      requires cells[level + i].value.None? && other.cells[level + i].value.Some?
      modifies cells[level + i]
      ensures Values() == old(Values())[level + i := other.cells[level + i].value]
      ensures other.Values() == old(other.Values())
      decreases i
    {
      if i == 0 {
        cells[level].Construct(other.cells[level]);
      } else {
        ConstructCopy(level + 1, i - 1, other);
      }
    }

    /**
     * `construct<i>(other&&)` on the sub-union at `level`: move the other
     * union's cell into the same cell of this one; the other cell keeps the
     * moved-from `residue`. No other cell of either union changes.
     */
    method ConstructMove(level: nat, i: nat, other: Union<V>, residue: V)
      requires Valid() && other.Valid() && Disjoint(other) && |other.cells| == |cells|
      requires level + i < |cells|
      requires cells[level + i].value.None? && other.cells[level + i].value.Some?
      modifies cells[level + i], other.cells[level + i]
      ensures Values() == old(Values())[level + i := old(other.cells[level + i].value)]
      ensures other.Values() == old(other.Values())[level + i := Some(residue)]
      decreases i
    {
      if i == 0 {
        cells[level].ConstructMove(other.cells[level], residue);
      } else {
        ConstructMove(level + 1, i - 1, other, residue);
      }
    }

    /** `reset<i>()` on the sub-union at `level`: destroy the object of
        that one cell; every other cell is unchanged. */
    method Reset(level: nat, i: nat)
      requires Valid() && level + i < |cells| && cells[level + i].value.Some?
      modifies cells[level + i]
      ensures Values() == old(Values())[level + i := None]
      decreases i
    {
      if i == 0 {
        cells[level].Reset();
      } else {
        Reset(level + 1, i - 1);
      }
    }

    /**
     * `emplace<i>(in_place_index<i>, args...)` on the sub-union at `level`:
     * construct that cell from the arguments and return a reference to it.
     * When the alternative's constructor throws, the cell stays empty.
     */
    method Emplace(level: nat, i: nat, v: V, throws: bool) returns (ok: bool, res: Cell<V>)
      requires Valid() && level + i < |cells| && cells[level + i].value.None?
      modifies cells[level + i]
      ensures ok == !throws && res == cells[level + i]
      ensures Values() == old(Values())[level + i := if ok then Some(v) else None]
      decreases i
    {
      if i == 0 {
        ok := cells[level].ConstructFrom(v, throws);
        res := cells[level];
      } else {
        ok, res := Emplace(level + 1, i - 1, v, throws);
      }
    }

    /** `get(in_place_index<i>)` on the sub-union at `level`: the cell
        reached by stepping into `rest` once per unit of `i`. */
    function GetAt(level: nat, i: nat): (c: Cell<V>)
      requires level + i < |cells|
      ensures c == cells[level + i]
      decreases i
    {
      if i == 0 then cells[level] else GetAt(level + 1, i - 1)
    }

    /** The object held in cell `i` of the whole union. */
    function Get(i: nat): (v: V)
      requires i < |cells| && cells[i].value.Some?
      reads cells
      ensures Some(v) == Values()[i]
    {
      GetAt(0, i).Get()
    }
  }
}

=== FILE: variant_utils.dfy ===
/**
 * The dispatch layer of the variant: the `npos` sentinel, the bad-access
 * error, checked access by index, and the recursive search that turns the
 * runtime active indices of one or more operands into a single visitor call.
 *
 * Everything here is pure. A variant is seen through a `State` snapshot:
 * its active index and, per alternative, whether that storage cell holds a
 * live object and which one.
 */
module VariantUtils {
  import opened Wrappers

  /** `variant_npos`, which is `size_t(-1)`: the largest 64-bit unsigned value. */
  const NPOS: nat := 0xFFFF_FFFF_FFFF_FFFF

  /** What the core can throw: `bad_variant_access`, or whatever an
      alternative's own constructor throws (propagated unchanged). */
  datatype Error = BadVariantAccess | ConstructorThrew

  /** How an operation that may throw ended. */
  datatype Status = Done | Threw(error: Error)

  /**
   * Snapshot of one variant: `index_` and one entry per alternative's
   * storage cell (`None` when no object lives in that cell).
   */
  datatype State<V> = State(index: nat, cells: seq<Option<V>>) {

    /** The one-live-cell invariant: the variant has between 1 and
        `npos` alternatives, `index_` is an alternative or `npos`, and a cell
        is live exactly when it is the active one. */
    predicate Valid() {
      && 1 <= |cells| <= NPOS
      && (index < |cells| || index == NPOS)
      && forall k :: 0 <= k < |cells| ==> (cells[k].Some? <==> k == index)
    }

    /** The number of alternatives, `variant_size_v`. */
    function Size(): nat {
      |cells|
    }

    /** Valueless by exception: `index_ == variant_npos`. */
    predicate IsValueless() {
      index == NPOS
    }

    /** The value of the active alternative. */
    function Active(): V
      requires Valid() && !IsValueless()
    {
      cells[index].value
    }
  }

  /** The valueless state of a variant with `n` alternatives. */
  function Valueless<V>(n: nat): (s: State<V>)
    requires 1 <= n <= NPOS
    ensures s.Valid() && s.IsValueless() && s.Size() == n
  {
    State(NPOS, seq(n, _ => None))
  }

  /** The state of a variant with `n` alternatives holding `v` in alternative `i`. */
  function Holding<V>(n: nat, i: nat, v: V): (s: State<V>)
    requires i < n <= NPOS
    ensures s.Valid() && !s.IsValueless() && s.index == i && s.Size() == n && s.Active() == v
  {
    State(i, seq(n, k => if k == i then Some(v) else None))
  }

  /** A valid state is determined by its size, its index and its active value. */
  lemma NormalForm<V>(s: State<V>)
    requires s.Valid()
    ensures s.IsValueless() ==> s == Valueless(s.Size())
    ensures !s.IsValueless() ==> s == Holding(s.Size(), s.index, s.Active())
  {
    if s.IsValueless() {
      var w: State<V> := Valueless(s.Size());
      assert forall k :: 0 <= k < s.Size() ==> s.cells[k] == w.cells[k];
    } else {
      var h := Holding(s.Size(), s.index, s.Active());
      assert forall k :: 0 <= k < s.Size() ==> s.cells[k] == h.cells[k];
    }
  }

  /** `npos` is never the index of an alternative. */
  lemma NposIsNoAlternative<V>(s: State<V>, i: nat)
    requires s.Valid() && i < s.Size()
    ensures i != NPOS && (s.IsValueless() ==> s.index != i)
  {
  }

  /**
   * `get<I>(v)`: the value of alternative `i` when it is the active one;
   * `bad_variant_access` otherwise, which covers every valueless variant.
   */
  function Get<V>(s: State<V>, i: nat): (r: Result<V, Error>)
    requires s.Valid() && i < s.Size()
    ensures r.Success? <==> i == s.index
    ensures r.Success? ==> s.cells[i] == Some(r.value) && r.value == s.Active()
    ensures r.Failure? ==> r.error == BadVariantAccess
  {
    if i != s.index then Failure(BadVariantAccess) else Success(s.cells[i].value)
  }

  /**
   * `get<T>(v)`: `get<I>` at the index `chosen` that overload resolution
   * picks for `T`; it succeeds exactly when that alternative is active.
   */
  function GetType<V>(s: State<V>, chosen: nat): (r: Result<V, Error>)
    requires s.Valid() && chosen < s.Size()
    ensures r.Success? <==> s.index == chosen
    ensures r.Success? ==> s.cells[chosen] == Some(r.value)
    ensures r.Failure? ==> r.error == BadVariantAccess
  {
    Get(s, chosen)
  }

  /** Every operand is a well-formed variant. */
  predicate AllValid<V>(ops: seq<State<V>>) {
    forall p :: 0 <= p < |ops| ==> ops[p].Valid()
  }

  /** Some operand is valueless. */
  predicate AnyValueless<V>(ops: seq<State<V>>) {
    exists p :: 0 <= p < |ops| && ops[p].IsValueless()
  }

  /** The active indices of the operands, in order. */
  function Indices<V>(ops: seq<State<V>>): (r: seq<nat>)
    ensures |r| == |ops| && forall p :: 0 <= p < |ops| ==> r[p] == ops[p].index
  {
    seq(|ops|, p requires 0 <= p < |ops| => ops[p].index)
  }

  /** The active values of the operands, in order. */
  function ActiveValues<V>(ops: seq<State<V>>): (r: seq<V>)
    requires AllValid(ops) && !AnyValueless(ops)
    ensures |r| == |ops| && forall p :: 0 <= p < |ops| ==> Some(r[p]) == ops[p].cells[ops[p].index]
  {
    seq(|ops|, p requires 0 <= p < |ops| && ops[p].Valid() && !ops[p].IsValueless() => ops[p].Active())
  }

  /**
   * `visit_chooser<true, ...>::choose<current, chosen...>(vis, ops[0], ops[1..])`.
   * `ops[0]` is the operand being resolved; `chosen` holds the indices already
   * resolved for the operands that were rotated to the back. The candidates
   * `current`, `current + 1`, ... are compared against the operand's index;
   * running past the last alternative lands in `visit_chooser<false, ...>`,
   * which throws. The result is the index tuple the visitor is invoked with.
   */
  function Choose<V>(current: nat, chosen: seq<nat>, ops: seq<State<V>>): (r: Result<seq<nat>, Error>)
    requires |chosen| < |ops| && forall p :: 0 <= p < |ops| ==> ops[p].Size() >= 1
    requires current < ops[0].Size()
    ensures r.Failure? ==> r.error == BadVariantAccess
    ensures r.Success? ==> |r.value| == |ops| && r.value[..|chosen|] == chosen
    decreases |ops| - |chosen|, ops[0].Size() - current
  {
    if ops[0].index == current then
      RunFunc(current, chosen, ops)
    else if current + 1 < ops[0].Size() then
      Choose(current + 1, chosen, ops)
    else
      Failure(BadVariantAccess)
  }

  /**
   * `visit_chooser<true, ...>::run_func<index, chosen...>(vis, ops[0], ops[1..])`:
   * once every operand is resolved, invoke the visitor with the resolved
   * indices (the rotated operands come back in their original order);
   * otherwise move the resolved operand to the back and resolve the next.
   */
  function RunFunc<V>(index: nat, chosen: seq<nat>, ops: seq<State<V>>): (r: Result<seq<nat>, Error>)
    requires |chosen| < |ops| && forall p :: 0 <= p < |ops| ==> ops[p].Size() >= 1
    ensures r.Failure? ==> r.error == BadVariantAccess
    ensures r.Success? ==> |r.value| == |ops| && r.value[..|chosen| + 1] == chosen + [index]
    decreases |ops| - |chosen|, 0
  {
    if |chosen| == |ops| - 1 then
      Success(chosen + [index])
    else
      Choose(0, chosen + [index], ops[1..] + [ops[0]])
  }

  /** What the search yields for the operands `todo` still to be resolved,
      after the indices `chosen`: a throw when one of them is valueless,
      else the resolved indices followed by their active indices. */
  function Scanned<V>(chosen: seq<nat>, todo: seq<State<V>>): Result<seq<nat>, Error> {
    if AnyValueless(todo) then Failure(BadVariantAccess) else Success(chosen + Indices(todo))
  }

  /**
   * The search invariant: started at a candidate that does not pass the
   * operand's index, `Choose` throws exactly when one of the operands still
   * to be resolved is valueless, and otherwise returns the resolved indices
   * followed by the active indices of the remaining operands.
   */
  lemma {:induction false} ChooseScans<V>(current: nat, chosen: seq<nat>, ops: seq<State<V>>)
    requires |chosen| < |ops| && AllValid(ops)
    requires current < ops[0].Size() && current <= ops[0].index
    requires forall p :: 0 <= p < |chosen| ==> ops[|ops| - |chosen| + p].index == chosen[p]
    ensures Choose(current, chosen, ops) == Scanned(chosen, ops[..|ops| - |chosen|])
    decreases |ops| - |chosen|, ops[0].Size() - current
  {
    if ops[0].index == current {
      if |chosen| == |ops| - 1 {
        LastFound(current, chosen, ops);
      } else {
        Rotate(chosen, ops);
        ChooseScans(0, chosen + [current], ops[1..] + [ops[0]]);
        ScannedRotates(chosen, ops);
      }
    } else if current + 1 < ops[0].Size() {
      ChooseScans(current + 1, chosen, ops);
    } else {
      assert ops[..|ops| - |chosen|][0].IsValueless();
    }
  }

  /** The last operand to resolve is found: the search ends with the full
      index tuple. */
  lemma LastFound<V>(current: nat, chosen: seq<nat>, ops: seq<State<V>>)
    requires |chosen| == |ops| - 1 && AllValid(ops)
    requires current < ops[0].Size() && ops[0].index == current
    ensures Choose(current, chosen, ops) == Scanned(chosen, ops[..|ops| - |chosen|])
  {
    var todo := ops[..|ops| - |chosen|];
    assert todo == [ops[0]];
    assert !AnyValueless(todo);
    assert Indices(todo) == [current];
  }

  /** Rotating a resolved, valued operand to the back does not change
      what the search yields. */
  lemma ScannedRotates<V>(chosen: seq<nat>, ops: seq<State<V>>)
    requires |chosen| < |ops| - 1 && !ops[0].IsValueless()
    ensures Scanned(chosen + [ops[0].index], (ops[1..] + [ops[0]])[..|ops| - |chosen| - 1]) ==
            Scanned(chosen, ops[..|ops| - |chosen|])
  {
    var todo := ops[..|ops| - |chosen|];
    var rest := (ops[1..] + [ops[0]])[..|ops| - |chosen| - 1];
    assert rest == todo[1..];
    DropFirst(todo);
    assert (chosen + [ops[0].index]) + Indices(rest) == chosen + Indices(todo);
  }

  /** One rotation step of the search: the resolved operand moves to the
      back, and the invariant on `chosen` carries over. */
  lemma Rotate<V>(chosen: seq<nat>, ops: seq<State<V>>)
    requires |chosen| < |ops| - 1 && AllValid(ops)
    requires forall p :: 0 <= p < |chosen| ==> ops[|ops| - |chosen| + p].index == chosen[p]
    ensures AllValid(ops[1..] + [ops[0]])
    ensures forall p :: 0 <= p <= |chosen| ==>
              (ops[1..] + [ops[0]])[|ops| - |chosen| - 1 + p].index == (chosen + [ops[0].index])[p]
  {
    var k, m := |ops|, |chosen|;
    var chosen', rot := chosen + [ops[0].index], ops[1..] + [ops[0]];
    forall p | 0 <= p <= m ensures rot[k - m - 1 + p].index == chosen'[p] {
      if p < m {
        assert rot[k - m - 1 + p] == ops[k - m + p];
      }
    }
  }

  /** Dropping the first operand: the rest is valueless somewhere exactly
      when the whole was, past its first element, and its indices are the
      whole's indices after the first. */
  lemma DropFirst<V>(todo: seq<State<V>>)
    requires |todo| >= 1
    ensures AnyValueless(todo) <==> todo[0].IsValueless() || AnyValueless(todo[1..])
    ensures Indices(todo) == [todo[0].index] + Indices(todo[1..])
  {
    var rest := todo[1..];
    if AnyValueless(todo) && !todo[0].IsValueless() {
      var p :| 0 <= p < |todo| && todo[p].IsValueless();
      assert rest[p - 1] == todo[p];
    }
    if AnyValueless(rest) {
      var p :| 0 <= p < |rest| && rest[p].IsValueless();
      assert todo[p + 1] == rest[p];
    }
  }

  /**
   * `visit_index`: resolve the operands' indices and hand them to the
   * visitor, with no valueless guard. A valueless operand therefore falls
   * off the end of the search and throws `bad_variant_access`.
   */
  function VisitIndex<V>(ops: seq<State<V>>): (r: Result<seq<nat>, Error>)
    requires |ops| >= 1 && AllValid(ops)
    ensures r.Failure? <==> AnyValueless(ops)
    ensures r.Failure? ==> r.error == BadVariantAccess
    ensures r.Success? ==> r.value == Indices(ops)
  {
    ChooseScans(0, [], ops);
    assert ops[..|ops|] == ops;
    Choose(0, [], ops)
  }

  /** The visitor's arguments: `get<idx[p]>` of each operand, for the
      index tuple the search resolved. */
  function Arguments<V>(ops: seq<State<V>>, idx: seq<nat>): (args: seq<V>)
    requires AllValid(ops) && !AnyValueless(ops) && idx == Indices(ops)
    ensures args == ActiveValues(ops)
  {
    var args := seq(|ops|, p requires 0 <= p < |ops| && AllValid(ops) && idx == Indices(ops) =>
                              Get(ops[p], idx[p]).value);
    assert forall p :: 0 <= p < |ops| ==> args[p] == ActiveValues(ops)[p];
    args
  }

  /**
   * `visit(vis, ops...)`: refuse any valueless operand with
   * `bad_variant_access` before the search; otherwise invoke the visitor
   * once, on the operands' active values (`get<I>` of each) in operand order.
   */
  function Visit<V, R>(vis: seq<V> -> R, ops: seq<State<V>>): (r: Result<R, Error>)
    requires |ops| >= 1 && AllValid(ops)
    ensures r.Failure? <==> AnyValueless(ops)
    ensures r.Failure? ==> r.error == BadVariantAccess
    ensures r.Success? ==> r.value == vis(ActiveValues(ops))
  {
    if AnyValueless(ops) then
      Failure(BadVariantAccess)
    else
      ChooseScans(0, [], ops);
      assert ops[..|ops|] == ops;
      match Choose(0, [], ops)
      case Success(idx) => Success(vis(Arguments(ops, idx)))
      case Failure(e) => Failure(e)
  }
}

=== FILE: wrappers.dfy ===
/** Option and Result, the two failure-compatible wrappers the model uses. */
module Wrappers {

  /** A value that may be absent: an empty storage cell, a null pointer. */
  datatype Option<+T> = None | Some(value: T)

  /** The outcome of an operation that can throw: a value, or the error it
      throws. With `:-`, an error propagates to the caller unchanged. */
  datatype Result<+T, +E> = Success(value: T) | Failure(error: E) {

    predicate IsFailure() {
      Failure?
    }

    function PropagateFailure<U>(): Result<U, E>
      requires Failure?
    {
      Failure(error)
    }

    function Extract(): T
      requires Success?
    {
      value
    }
  }
}
